=== FILE: README.md ===
# authorizable: a Dafny model of the rule engine

This project models the rule engine of the PHP authorization library *authorizable*. Callers register rules with `allow` (a **privilege**) and `deny` (a **restriction**). Each rule names an action, a resource and an optional condition closure. `can(action, resource, ...extra)` then collects the rules relevant to the request and lets a **strategy** decide:

- **sequential** (the default): the last relevant rule decides;
- **subtractive**: any failing check vetoes;
- **additive**: any passing check grants.

Under every strategy, an empty set of relevant rules is denied (fail closed).

The model is functional. Rules, rule sets, the manager and the older `Authorizable` engine are immutable datatypes. Registration returns a new value instead of mutating one.

| file | module | models |
|---|---|---|
| wrappers.dfy | `Wrappers` | `Option`, `Result` |
| values.dfy | `Values` | PHP values (`null`, bool, int, string, object with class name and properties), `gettype`, loose truthiness |
| rules.dfy | `Rules` | `Rule`, `Privilege`/`Restriction`, `matchesAction`, `matchesResource`, `isRelevant`, `checkCondition`, `check` |
| collection.dfy | `Collection` | the collection's order-preserving `filter`, `Rule\Collection::getRelevantRules` |
| rule_collection.dfy | `RuleCollection` | the older `RuleCollection::getRelevantRules`, as a loop |
| sequential.dfy, subtractive.dfy, additive.dfy | `SequentialStrategy`, `SubtractiveStrategy`, `AdditiveStrategy` | each strategy's `apply` |
| strategy.dfy | `Strategy` | the fail-closed base `check` |
| arguments.dfy | `Arguments` | normalising `actions`/`resources` to lists; the resource × action cross product; object resources in `can` |
| manager.dfy | `Manager` | `Manager`: constructor, `setStrategy`, `can`, `cannot`, `canAny`, `canAll`, `allow`, `deny`, `addRules`, `getRules`, `getRelevantRules` |
| authorizable.dfy | `Authorizable` | the older engine: `getRulesFor` by exact equality, the inline sequential/additive decision, `allow`/`deny`/`addRules`, mode switches |
| strategy_scenarios.dfy, manager_scenarios.dfy, authorizable_scenarios.dfy | `StrategyScenarios`, `ManagerScenarios`, `AuthorizableScenarios` | the documented test scenarios, as lemmas |

How the PHP is modelled:

- A condition is a total function from the argument list to `bool`.
- A resource is a `Values.Value`. An object is `Instance(cls, fields)`, so `get_class` is `cls`.
- Registration, the strategy and the condition arguments are explicit parameters.
- `getRules` is a plain accessor (`Manager.GetRules`, `Authorizable.GetRules`). It carries no contract of its own. The registration members state how the rule list it returns grows.

Three behaviours of the code are modelled as written:

- `Manager::can` (src/Manager.php:50-63) raises nothing for a resource that is neither a string nor an object. It passes such a resource to `matchesResource`. That matches it for a rule on "all" (src/Rule/Rule.php:83-84) or for a rule stored with an equal value of the same type (src/Rule/Rule.php:85-86), and otherwise fails closed. So `allow('read', 'all')` followed by `can('read', null)` grants. `Manager.Can` therefore has no error path.
- The docblocks of `canAny` and `canAll` promise a result when any rule matches (src/Manager.php:77) and when all rules match (src/Manager.php:94). That is, they promise the disjunction and the conjunction of `can` over a list of actions. The code loops over a variable it never defines, so the loop never runs (src/Manager.php:84, 101). `Manager.CanAny` is constantly false and `Manager.CanAll` constantly true.
- The docblock of `WILDCARD` (src/Rule/Rule.php:25) says the wildcard matches any action or resource. `matchesAction` (src/Rule/Rule.php:70-73) never consults it, so only resources honour it. A rule for the action "all" matches only a query that lists "all" (`Rules.WildcardIsNotAnAction`).

## Model

| member | source | states |
|---|---|---|
| Values.KindOf | src/Rule/Rule.php:85 | the PHP type of a value; it is "string" exactly for strings and "object" exactly for objects, which is what the class-name branches of resource matching rely on |
| Rules.NewRule | src/Rule/Rule.php:36-43 | the constructor keeps action, resource and polarity; the condition is kept exactly when it is a closure (bindable or not), and then unchanged |
| Rules.MatchesAction | src/Rule/Rule.php:70-73 | a rule matches the queried actions exactly when its action is one of them; a single queried action matches only itself |
| Rules.InArray | src/Rule/Rule.php:70-73 | the action scan answers true exactly when the rule's action is one of the queried actions |
| Rules.MatchesResource | src/Rule/Rule.php:81-94 | written branch by branch as in the source (wildcard, same type then equality, object vs. class name in both directions, otherwise false); proved equivalent to: wildcard, or equal, or a class name matching an object on either side |
| Rules.IsRelevant | src/Rule/Rule.php:59-62 | relevant exactly when the rule's action is among the queried actions and the resource matches |
| Rules.CheckCondition | src/Rule/Rule.php:132-135 | without a condition the check passes; with one, the condition's answer on the given arguments |
| Rules.Check | src/Rule/Restriction.php:9-12 | a privilege reports its condition; a restriction reports its negation |
| Rules.Checks | src/Rule/Collection/Strategy/Subtractive.php:14-16 | the mapped check results: one per rule, in order, each the rule's own check |
| Rules.UnconditionalCheck | src/Rule/Rule.php:132-135 | an unconditional rule passes exactly when it is a privilege |
| Rules.NonClosureIsUnconditional | src/Rule/Rule.php:40-42 | a condition that is not a closure is dropped: the rule is unconditional and passes exactly when it is a privilege |
| Rules.RestrictionNegatesPrivilege | src/Rule/Restriction.php:9-12 | with the same condition and arguments, a restriction answers the opposite of a privilege |
| Rules.ConditionSeesArguments | src/Rule/Rule.php:132-135 | the closure receives the argument list unchanged |
| Rules.SingleActionIsEquality | src/Rule/Rule.php:70-73 | for a single queried action, the array cast makes matching plain equality |
| Rules.WildcardIsNotAnAction | src/Rule/Rule.php:70-73 | "all" is only a resource wildcard: a rule for action "all" matches exactly the queries that list "all" |
| Rules.WildcardMatchesEveryResource | src/Rule/Rule.php:83-84 | a rule on the resource "all" matches every resource |
| Rules.ClassNameMatchesInstance | src/Rule/Rule.php:87-90 | a class name and an object of that class match, whichever of the two the rule stores |
| Rules.MismatchedKindsFailClosed | src/Rule/Rule.php:85-93 | apart from the wildcard and the name/object pairs, values of different PHP types never match |
| Rules.MockResourceMatching | tests/RuleTest.php:36-54 | the rule tests: matching a mock object, its class name and the plain name "Object", and relevance for lists of actions |
| Collection.Filter | src/Rule/Collection.php:18-20 | the filter keeps only accepted elements and never grows the collection |
| Collection.FilterSelects | src/Rule/Collection.php:16-21 | the filter's result is an in-order subsequence taken at exactly the positions whose element is accepted |
| Collection.FilterComplete | src/Rule/Collection.php:16-21 | no accepted element is dropped |
| Collection.FilterAppend | src/Rule/Collection.php:16-21 | filtering a concatenation filters each part |
| Collection.FilterKeepsAll | src/Rule/Collection.php:16-21 | a collection whose every element is accepted passes unchanged |
| Collection.FilterIdempotent | src/Rule/Collection.php:16-21 | filtering twice with the same test is filtering once |
| Collection.FilterEmpty | src/Rule/Collection/Strategy/Subtractive.php:16-18 | the filtered collection is empty exactly when no element is accepted |
| Collection.Relevant | src/Rule/Collection.php:16-21 | every returned rule lists a queried action and matches the resource; never more rules than stored |
| Collection.RelevantSelects | src/Rule/Collection.php:16-21 | the relevant rules are the stored rules, in order, at exactly the positions of the relevant ones |
| Collection.RelevantComplete | src/Rule/Collection.php:16-21 | every relevant stored rule is returned |
| Collection.RelevantIdempotent | src/Rule/Collection.php:16-21 | filtering the relevant rules again for the same request changes nothing |
| Collection.RelevantAppend | src/Manager.php:180 | after rules are appended, the relevant rules are the old relevant ones followed by the relevant new ones |
| Collection.RelevantCons | src/Rule/Collection.php:18-20 | the first rule is kept exactly when it is relevant, ahead of the relevant rest |
| Collection.RelevantSnoc | src/Rule/Collection.php:16-21 | appending one rule appends it to the relevant rules exactly when it is relevant |
| Collection.FilterStep | src/Rule/Collection.php:18-20 | at any position the filter keeps that element exactly when accepted, ahead of the filtered rest |
| Collection.FilterSameTest | src/Rule/Collection.php:18-20 | two filter callbacks that agree on every element select the same elements |
| Collection.FilterSix | src/Rule/Collection.php:18-20 | the filter over six elements keeps each element, in order, exactly when it is accepted |
| RuleCollection.GetRelevantRules | src/RuleCollection.php:16-21 | the older collection's scan returns exactly the same rules as the collection filter, each relevant |
| SequentialStrategy.ReduceIsConjunction | src/Rule/Collection/Strategy/Sequential.php:14-16 | the `&&` fold from a seed is the seed and-ed with every rule's check |
| SequentialStrategy.Apply | src/Rule/Collection/Strategy/Sequential.php:10-17 | grants on an empty collection (the fold's seed is true); otherwise grants exactly when every rule passes or the last rule passes |
| SequentialStrategy.LastRuleDecides | src/Rule/Collection/Strategy/Sequential.php:14-16 | on a non-empty collection the last rule's check alone decides |
| SequentialStrategy.SingleRule | src/Rule/Collection/Strategy/Sequential.php:10-17 | a single rule decides by its own check |
| SequentialStrategy.AppendedUnconditionalRuleWins | src/Rule/Collection/Strategy/Sequential.php:16 | an unconditional rule appended last grants exactly when it is a privilege, whatever came before |
| SequentialStrategy.OrderSensitive | src/Rule/Collection/Strategy/Sequential.php:10-17 | restriction-then-privilege grants while privilege-then-restriction denies: order matters |
| SubtractiveStrategy.Apply | src/Rule/Collection/Strategy/Subtractive.php:10-19 | grants exactly when every rule's check passes |
| SubtractiveStrategy.UnconditionalRestrictionVetoes | src/Rule/Collection/Strategy/Subtractive.php:12-13 | one unconditional restriction anywhere denies |
| SubtractiveStrategy.UnconditionalPrivilegesGrant | src/Rule/Collection/Strategy/Subtractive.php:10-19 | unconditional privileges alone grant |
| SubtractiveStrategy.PermutationInvariant | src/Rule/Collection/Strategy/Subtractive.php:10-19 | the verdict does not depend on the order of the rules |
| SubtractiveStrategy.AppendIsConjunction | src/Rule/Collection/Strategy/Subtractive.php:10-19 | the verdict on two joined collections is the conjunction of their verdicts |
| AdditiveStrategy.Apply | src/Strategy/Additive.php:10-19 | grants exactly when some rule's check passes |
| AdditiveStrategy.UnconditionalRestrictionsDeny | src/Strategy/Additive.php:10-19 | unconditional restrictions alone deny |
| AdditiveStrategy.UnconditionalPrivilegeGrants | src/Strategy/Additive.php:12-13 | one unconditional privilege anywhere grants |
| AdditiveStrategy.PermutationInvariant | src/Strategy/Additive.php:10-19 | the verdict does not depend on the order of the rules |
| AdditiveStrategy.AppendIsDisjunction | src/Strategy/Additive.php:10-19 | the verdict on two joined collections is the disjunction of their verdicts |
| Strategy.CheckWith | src/Rule/Collection/Strategy.php:11-18 | for any `apply`: an empty collection is denied, a non-empty one is decided by `apply` |
| Strategy.Check | src/Rule/Collection/Strategy.php:11-18 | fail closed; sequential: non-empty and the last rule passes; subtractive: non-empty and all pass; additive: some rule passes |
| Strategy.CheckWithoutArgs | src/Rule/Collection/Strategy.php:11 | called without arguments: denied when empty, otherwise `apply` with an empty argument list |
| Strategy.FailClosed | src/Rule/Collection/Strategy.php:13-15 | no strategy, and no `apply` at all, grants on an empty collection (the empty-collection test, tests/StrategyTest.php:30-36) |
| Strategy.MonotoneUnderAppend | src/Rule/Collection/Strategy.php:11-18 | adding rules can only keep or widen an additive grant; once the collection is non-empty, adding rules can only keep or narrow a subtractive grant |
| StrategyScenarios.UserRuleRelevance | tests/StrategyTest.php:20-27 | a test rule on "User" is relevant exactly to its own action on "User" |
| StrategyScenarios.TestRulesRelevance | tests/StrategyTest.php:40-57 | for the test rules, relevance to "User" is filtering by action |
| StrategyScenarios.TestRulesUnfolded | tests/StrategyTest.php:20-27 | the rules relevant to an action on "User" are the test rules for that action, in their order |
| StrategyScenarios.CreateVerdicts | tests/StrategyTest.php:38-54 | on create (a restriction then a privilege) sequential and additive grant, subtractive denies |
| StrategyScenarios.ReadVerdicts | tests/StrategyTest.php:44-55 | on read (a lone privilege) additive and subtractive grant |
| StrategyScenarios.UpdateVerdicts | tests/StrategyTest.php:38-56 | on update (a privilege then a restriction) sequential denies, additive grants, subtractive denies |
| StrategyScenarios.DeleteVerdicts | tests/StrategyTest.php:44-57 | on delete (a lone restriction) additive and subtractive deny |
| Arguments.AsList | src/Manager.php:155-165 | a string becomes a one-element list, an array is kept, and anything else is an invalid-argument error |
| Arguments.Row | src/Manager.php:174-177 | the rules for one resource: one per action, in action order |
| Arguments.CrossProduct | src/Manager.php:171-178 | one rule per resource-action pair: `Offset(resources, actions)` rules in all, which is resources × actions (`Arguments.CrossProductCount`) |
| Arguments.CrossProductCount | src/Manager.php:173-177 | the number of rules built is the number of resources times the number of actions |
| Arguments.CrossProductMembers | src/Manager.php:173-177 | every rule built has the requested polarity, one of the actions and one of the resources |
| Arguments.CrossProductPair | src/Manager.php:173-177 | resources in the outer loop, actions in the inner loop: resource i with action j sits at position `Offset(i, n) + j`, where n is the number of actions, so the i-th block of n rules holds resource i with every action in order |
| Arguments.Bind | src/Manager.php:167-169 | a closure that cannot be bound becomes no condition (PHP's `null`); a bindable closure and every other value are unchanged |
| Arguments.NewRules | src/Manager.php:153-178 | raises exactly when either argument is malformed; otherwise builds the cross product of the normalised lists, with the bound condition |
| Arguments.LookupResource | src/Manager.php:56-58 | an object is looked up by its class name; any other resource as it is |
| Arguments.ConditionArguments | src/Manager.php:56-60 | an object is passed to the conditions ahead of the extra arguments; otherwise the extra arguments pass unchanged |
| Manager.SetStrategy | src/Manager.php:213-216 | a missing strategy means sequential; the rules are unchanged |
| Manager.New | src/Manager.php:36-40 | a new manager has no rules and the strategy as `setStrategy` chooses it |
| Manager.GetRelevantRules | src/Manager.php:202-205 | only relevant registered rules, never more than are registered |
| Manager.Can | src/Manager.php:50-63 | grants only when some rule is relevant to the looked-up resource; under each strategy, the strategy's characterisation over the relevant rules and the condition arguments |
| Manager.Cannot | src/Manager.php:71-74 | exactly the negation of `can` |
| Manager.CanAny | src/Manager.php:82-91 | the loop over an undefined variable never runs, so the answer is false for every input |
| Manager.CanAll | src/Manager.php:99-108 | the loop over an undefined variable never runs, so the answer is true for every input |
| Manager.AddRules | src/Manager.php:153-183 | raises exactly on a malformed argument; otherwise appends exactly the cross product to the rules, keeps the strategy and returns the new rules |
| Manager.Allow | src/Manager.php:128-131 | registers and returns privileges only, appended after the existing rules |
| Manager.Deny | src/Manager.php:139-142 | registers and returns restrictions only, appended after the existing rules |
| Manager.CanOnInstance | src/Manager.php:56-62 | asking about an object is asking about its class name, with the object as the first extra argument |
| Manager.AddedRuleRelevance | src/Manager.php:180 | registering one rule extends every relevance query by that rule exactly when it is relevant |
| Manager.SingleRuleRelevant | src/Manager.php:171-182 | a rule registered for one action on one name is the last relevant rule for that action and name |
| Manager.SequentialLatestRuleWins | src/Manager.php:50-63 | under the sequential strategy the latest unconditional rule for an action and name decides it |
| Manager.BoundConditionDecides | src/Manager.php:167-169 | under the sequential strategy, a privilege registered with a bindable closure grants exactly when the closure accepts the arguments |
| Manager.UnbindableConditionFailsOpen | src/Manager.php:167-169 | a closure that cannot be bound is registered as no condition, so under the sequential strategy the privilege grants its action and resource for every argument list (fail open) |
| Manager.SubtractiveDenialIsFinal | src/Rule/Collection/Strategy/Subtractive.php:12-13 | under the subtractive strategy an unconditional denial stays final whatever is registered later |
| Manager.AdditivePrivilegeIsFinal | src/Strategy/Additive.php:12-13 | under the additive strategy an unconditional privilege stays final whatever is registered later |
| ManagerScenarios.NamedScenarioRelevance | tests/ManagerTest.php:44-48 | in the named-resource test each action finds exactly its own rule and an unknown action finds none |
| ManagerScenarios.NamedCreateAndRead | tests/ManagerTest.php:44-54 | with the default strategy, create is granted and read is not refused |
| ManagerScenarios.NamedUpdate | tests/ManagerTest.php:44-55 | update, whose only rule is a restriction, is denied and refused |
| ManagerScenarios.NamedUndefined | tests/ManagerTest.php:44-56 | an action with no rules is denied and refused |
| ManagerScenarios.AddCountsForRead | src/Manager.php:171-180 | registering one rule on "User" adds one rule, and one rule relevant to reading "User" exactly when it is for read |
| ManagerScenarios.RelevantCount | tests/ManagerTest.php:32-42 | five registered rules, two of them relevant to reading "User" |
| ManagerScenarios.RegisteredRules | tests/ManagerTest.php:18-30 | `allow` returns a privilege and `deny` a restriction, both stored in registration order |
| ManagerScenarios.ObjectScenarioRelevance | tests/ManagerTest.php:59-73 | in the object test each action finds exactly its own conditional rule |
| ManagerScenarios.ObjectReadDecisions | tests/ManagerTest.php:75-76 | reading the object: granted for id 1, denied for id 2, because the object reaches the condition |
| ManagerScenarios.ObjectUpdateDecisions | tests/ManagerTest.php:78-82 | updating the object: the restriction holds back only objects whose id is not 1 |
| ManagerScenarios.ExtraScenarioRelevance | tests/ManagerTest.php:85-99 | in the extra-argument test each action finds exactly its own rule |
| ManagerScenarios.ExtraArgumentReadDecisions | tests/ManagerTest.php:101-103 | read verdicts: id 1 and an extra argument loosely true are both needed |
| ManagerScenarios.ExtraArgumentUpdateDecisions | tests/ManagerTest.php:105-111 | update verdicts, including a missing extra argument, which counts as false |
| ManagerScenarios.CanAnyCanAllIgnoreRules | src/Manager.php:82-108 | with one privilege registered, `canAny` denies what `can` grants and `canAll` grants what `can` denies |
| Authorizable.New | src/Authorizable.php:16-21 | a new engine decides sequentially and holds no rules |
| Authorizable.GetRulesFor | src/Authorizable.php:65-70 | only rules whose action and resource both equal the query's, never more than are stored |
| Authorizable.GetRulesForSelects | src/Authorizable.php:65-70 | the lookup is an in-order subsequence of the stored rules, at exactly the positions of the exact matches |
| Authorizable.ExactMatchesAreRelevant | src/Authorizable.php:65-70 | every exact match would also be relevant under the manager's matching |
| Authorizable.NoWildcardLookup | src/Authorizable.php:68 | a rule stored on "all" is never returned for another resource |
| Authorizable.NoClassNameLookup | src/Authorizable.php:68 | a rule stored on a class name is never returned for an object of that class |
| Authorizable.DecisionIsStrategyCheck | src/Authorizable.php:40-62 | the inline decision equals the fail-closed sequential or additive strategy check, as the mode flag selects |
| Authorizable.Can | src/Authorizable.php:28-63 | the per-rule loop returns the decision: false when no rule matches; otherwise all pass or the last passes (sequential), or some rule passes (additive) |
| Authorizable.Cannot | src/Authorizable.php:78-81 | exactly the negation of the decision |
| Authorizable.AddRules | src/Authorizable.php:140-164 | raises exactly on a malformed argument; otherwise appends exactly the cross product and keeps the mode |
| Authorizable.Allow | src/Authorizable.php:113-116 | keeps the stored rules as a prefix and appends privileges only |
| Authorizable.Deny | src/Authorizable.php:126-129 | keeps the stored rules as a prefix and appends restrictions only |
| Authorizable.SetCheckToSequential | src/Authorizable.php:176-180 | switches to the sequential decision and leaves the rules alone |
| Authorizable.SetCheckToAdditive | src/Authorizable.php:182-186 | switches to the additive decision and leaves the rules alone |
| Authorizable.AddedRuleLookup | src/Authorizable.php:158-163 | registering one rule extends every lookup by that rule exactly when it matches the query exactly |
| AuthorizableScenarios.StoresRules | tests/AuthorizableTest.php:23-39 | a privilege plus a restriction make two stored rules, in either order |
| AuthorizableScenarios.LookupCount | tests/AuthorizableTest.php:41-51 | five stored rules, two of them found for reading "User" |

## Left out

- The Laravel integration under src/Support/Laravel: framework wiring, the translator and configuration, and the `AccessDenied` exception.
- The active subject (`getUser`, temporary users). The `Manager` does not have it; only the Laravel traits refer to it.
- What `Closure::bind` (src/Manager.php:168, src/Authorizable.php:155) gives a closure beyond its arguments. Conditions here are pure functions of their argument list, so binding a bindable closure changes nothing. A closure that cannot be bound, such as a static closure or one created from another class's method, is modelled: PHP answers `null`, and the rule constructor keeps no condition (src/Rule/Rule.php:40-42). `Manager.UnbindableConditionFailsOpen` states the result: such a privilege grants every request it is relevant to. PHP's warning "Cannot bind an instance to a static closure" is not modelled. Neither is a warning-converting error handler, under which registration throws instead.
- Conditions that throw. A condition is a total function to `bool`, so an error escaping from a closure is not modelled.
- Condition results that are not booleans. The strict `=== false` (subtractive) and `=== true` (additive) filters, and the loose `== true` of the older engine, all coincide for booleans.
- Floats and arrays as values. `Values.Value` has no case for PHP's `double` or `array`, so a resource such as `1.5` or `[1, 2]`, and the `gettype` results for them (src/Rule/Rule.php:85), cannot be expressed. Under the source they match only the wildcard or an equal value of the same type.
- PHP loose comparison. Action membership (`in_array`), same-type resource equality and `getRulesFor`'s `==` are modelled as exact equality:
  - numeric strings such as "1" and "01" are distinct here;
  - objects compare structurally (class and properties) instead of property by property with loose comparison.
- The `(array)` cast of a non-string, non-array action. A query is a single action name or a list of names.
- `__call` and `__invoke`. The dynamic forwarding of `can`/`cannot`/`canAny`/`canAll` and of `check` becomes ordinary calls.
- Mutation and object identity. Registration returns a new value, and the relevance filter cannot change the stored rules.
- The base class of the additive strategy (src/Strategy/Additive.php:5) and `Privilege.php` are not part of this model. A privilege's check is taken to be its condition, as `Rule::checkCondition` returns it.
- The older `Privilege` and `Restriction` classes. src/Authorizable.php:7-12 imports neither, so `new Privilege` and `new Restriction` at src/Authorizable.php:160 name classes in the older `JoshuaJabbour\Authorizable` namespace. The older rule tests use the same classes (tests/RuleTest.php:7-9, tests/AuthorizableTest.php:8-9). Those classes are not part of this model. The model assumes they match and check as `Rule\Rule` and `Rule\Restriction` do. This assumption covers `Authorizable.AddRules`, `Authorizable.Allow`, `Authorizable.Deny` and `Rules.MockResourceMatching`.
- Strategies beyond the three the model knows. `Manager::setStrategy` (src/Manager.php:213) accepts any `Rule\Collection\Strategy` subclass, and the base `check` is not final, so a subclass could replace it. `Manager.Manager` stores one of `Strategy.Strategy`'s three cases. `Strategy.CheckWith` states the base `check` for an arbitrary `apply`, but not for an overridden `check`.
- The additive strategy's class hierarchy. src/Strategy/Additive.php:3-8 declares `Additive` in the namespace `JoshuaJabbour\Authorizable\Strategy`. It extends `JoshuaJabbour\Authorizable\Strategy\Strategy`, which is not part of this model. `Manager::setStrategy` type-hints `Rule\Collection\Strategy` (src/Manager.php:13, 213), so this class as written cannot be passed to the manager. Its inherited `check` is not shown to fail closed either. The strategy tests import a `Rule\Collection\Strategy\Additive` (tests/StrategyTest.php:9), which is not part of this model. The model assumes the additive strategy is a `Rule\Collection\Strategy` subclass with the base fail-closed `check`, which the manager accepts. The members that rest on this assumption are `Strategy.Strategy`, the additive clause of `Strategy.Check`, `Manager.Manager`, `Manager.Can`, `Manager.AdditivePrivilegeIsFinal`, `StrategyScenarios.CreateVerdicts`, `StrategyScenarios.ReadVerdicts`, `StrategyScenarios.UpdateVerdicts` and `StrategyScenarios.DeleteVerdicts`.
- Manager.CanAny: constant false and not the disjunction of `can`, because the code's loop variable is undefined. Reading the undefined `$actions` also raises an undefined-variable notice, and the `foreach` over null raises a warning, before false is returned. An error handler that converts notices into exceptions, as Laravel's does, makes the call throw instead. Notices and error handlers are not modelled.
- Manager.CanAll: constant true and not the conjunction of `can`, for the same reason. It raises the same notice and warning before true is returned, and it throws under the same kind of error handler.
- `Authorizable::canAny` and `Authorizable::canAll` (src/Authorizable.php:83-103). They repeat `Manager::canAny`/`canAll` line for line: the loop over the undefined `$actions` never runs, so they return false and true after the same notice and warning. They have no docblock, and the older engine's public surface is modelled only as far as rule lookup and the decision, so they have no member here. `Manager.CanAny` and `Manager.CanAll` state the behaviour they share.
- Manager.Can: has no invalid-argument path for a malformed action or resource, because the code raises none.

=== FILE: additive.dfy ===
/**
 * The additive strategy: any check that comes back true grants, so a
 * restriction is only ever a missing vote.
 */
module AdditiveStrategy {
  import opened Values
  import opened Rules
  import opened Collection

  /** The filter callback keeping results identical to true. */
  const IsGrant: bool -> bool := b => b == true

  /** Maps every rule to its check, keeps the true results, and grants when any are left. */
  function Apply(rules: seq<Rule>, args: seq<Value>): (r: bool)
    ensures r <==> SomeAllows(rules, args)
  {
    var results := Checks(rules, args);
    FilterEmpty(results, IsGrant);
    !(|Filter(results, IsGrant)| == 0)
  }

  /** A collection of unconditional restrictions only denies. */
  lemma UnconditionalRestrictionsDeny(rules: seq<Rule>, args: seq<Value>)
    requires forall j :: 0 <= j < |rules| ==> rules[j].polarity == Restriction && rules[j].condition.None?
    ensures !Apply(rules, args)
  {
  }

  /** An unconditional privilege anywhere in the collection grants, whatever else it holds. */
  lemma UnconditionalPrivilegeGrants(rules: seq<Rule>, args: seq<Value>, j: int)
    requires 0 <= j < |rules|
    requires rules[j].polarity == Privilege && rules[j].condition.None?
    ensures Apply(rules, args)
  {
  }

  /** The order of the rules does not matter. */
  lemma PermutationInvariant(rules: seq<Rule>, p: seq<int>, args: seq<Value>)
    requires IsPermutation(p, |rules|)
    ensures Apply(Reorder(rules, p), args) == Apply(rules, args)
  {
    var moved := Reorder(rules, p);
    if SomeAllows(rules, args) {
      var j :| 0 <= j < |rules| && Check(rules[j], args);
      assert j in p;
      var i :| 0 <= i < |p| && p[i] == j;
      assert moved[i] == rules[j];
    }
  }

  /** Joining two collections grants when either grants; adding rules never turns a grant into a denial. */
  lemma AppendIsDisjunction(a: seq<Rule>, b: seq<Rule>, args: seq<Value>)
    ensures Apply(a + b, args) == (Apply(a, args) || Apply(b, args))
  {
    if SomeAllows(a + b, args) {
      var i :| 0 <= i < |a + b| && Check((a + b)[i], args);
      if i >= |a| {
        assert (a + b)[i] == b[i - |a|];
      }
    }
    if SomeAllows(b, args) {
      var i :| 0 <= i < |b| && Check(b[i], args);
      assert (a + b)[|a| + i] == b[i];
    }
    if SomeAllows(a, args) {
      var i :| 0 <= i < |a| && Check(a[i], args);
      assert (a + b)[i] == a[i];
    }
  }
}

=== FILE: arguments.dfy ===
/**
 * Argument handling shared by the manager and the older engine: how
 * `allow`/`deny` turn their `actions` and `resources` into lists and build
 * one rule per pair, and how `can` turns an object resource into its class
 * name while handing the object itself to the conditions.
 */
module Arguments {
  import opened Wrappers
  import opened Values
  import opened Rules

  /** The exception raised for a malformed `actions` or `resources` argument. */
  datatype Error = InvalidArgument

  /** An `actions` or `resources` argument: a string, an array, or any other PHP value. */
  datatype Arg<T> = Scalar(s: string) | Array(items: seq<T>) | OtherValue

  /** A string becomes a one-element array, an array is kept, anything else is rejected. */
  function AsList<T>(arg: Arg<T>, lift: string -> T): (r: Result<seq<T>, Error>)
    ensures r.Err? <==> arg.OtherValue?
    ensures arg.Scalar? ==> r == Ok([lift(arg.s)])
    ensures arg.Array? ==> r == Ok(arg.items)
  {
    match arg
    case Scalar(s) => Ok([lift(s)])
    case Array(items) => Ok(items)
    case OtherValue => Err(InvalidArgument)
  }

  /** The rules for one resource, one per action, in action order. */
  function Row(polarity: Polarity, actions: seq<string>, resource: Value, condition: ConditionArg): (r: seq<Rule>)
    ensures |r| == |actions|
    ensures forall j :: 0 <= j < |actions| ==> r[j] == NewRule(polarity, actions[j], resource, condition)
  {
    seq(|actions|, j requires 0 <= j < |actions| => NewRule(polarity, actions[j], resource, condition))
  }

  /** Where the block of resource `i` starts when every resource contributes `n` rules. */
  function Offset(i: nat, n: nat): nat {
    if i == 0 then 0 else Offset(i - 1, n) + n
  }

  /** The block offset is the product of the resource position and the block size. */
  lemma {:induction false} OffsetIsProduct(i: nat, n: nat)
    ensures Offset(i, n) == i * n
  {
    if i > 0 {
      OffsetIsProduct(i - 1, n);
      assert i * n == (i - 1) * n + n;
    }
  }

  /**
   * One rule per (resource, action) pair, resources in the outer loop and
   * actions in the inner loop.
   */
  function CrossProduct(polarity: Polarity, actions: seq<string>, resources: seq<Value>, condition: ConditionArg): (r: seq<Rule>)
    ensures |r| == Offset(|resources|, |actions|)
    decreases |resources|
  {
    if |resources| == 0 then []
    else
      Row(polarity, actions, resources[0], condition) + CrossProduct(polarity, actions, resources[1..], condition)
  }

  /** The cross product holds one rule per resource and action: resources times actions in all. */
  lemma CrossProductCount(polarity: Polarity, actions: seq<string>, resources: seq<Value>, condition: ConditionArg)
    ensures |CrossProduct(polarity, actions, resources, condition)| == |resources| * |actions|
  {
    OffsetIsProduct(|resources|, |actions|);
  }

  /** The first resource's rules come first, then those of the remaining resources. */
  lemma CrossProductUnfold(polarity: Polarity, actions: seq<string>, resources: seq<Value>, condition: ConditionArg)
    requires |resources| > 0
    ensures CrossProduct(polarity, actions, resources, condition)
         == Row(polarity, actions, resources[0], condition) + CrossProduct(polarity, actions, resources[1..], condition)
  {
  }

  /** Every rule built has the requested polarity, one of the actions and one of the resources. */
  lemma {:induction false} CrossProductMembers(polarity: Polarity, actions: seq<string>, resources: seq<Value>, condition: ConditionArg)
    ensures var r := CrossProduct(polarity, actions, resources, condition);
      forall k :: 0 <= k < |r| ==> r[k].polarity == polarity && r[k].action in actions && r[k].resource in resources
    decreases |resources|
  {
    if |resources| > 0 {
      var row: seq<Rule> := Row(polarity, actions, resources[0], condition);
      var rest: seq<Rule> := CrossProduct(polarity, actions, resources[1..], condition);
      CrossProductMembers(polarity, actions, resources[1..], condition);
      CrossProductUnfold(polarity, actions, resources, condition);
      forall k | 0 <= k < |row + rest|
        ensures (row + rest)[k].polarity == polarity && (row + rest)[k].action in actions && (row + rest)[k].resource in resources
      {
        if k >= |row| {
          assert (row + rest)[k] == rest[k - |row|];
        }
      }
    }
  }

  /** Reading past a prefix reads the suffix. */
  lemma IndexPastPrefix<T>(a: seq<T>, b: seq<T>, k: int)
    requires 0 <= k < |b|
    ensures |a| + k < |a + b| && (a + b)[|a| + k] == b[k]
  {
  }

  /**
   * Resources in the outer loop, actions in the inner loop: the rule for
   * resource `i` and action `j` is the `j`-th rule of the `i`-th block.
   */
  lemma {:induction false} CrossProductPair(polarity: Polarity, actions: seq<string>, resources: seq<Value>, condition: ConditionArg, i: nat, j: nat)
    requires i < |resources| && j < |actions|
    ensures Offset(i, |actions|) + j < |CrossProduct(polarity, actions, resources, condition)|
    ensures CrossProduct(polarity, actions, resources, condition)[Offset(i, |actions|) + j]
         == NewRule(polarity, actions[j], resources[i], condition)
    decreases i
  {
    var row := Row(polarity, actions, resources[0], condition);
    var rest := CrossProduct(polarity, actions, resources[1..], condition);
    CrossProductUnfold(polarity, actions, resources, condition);
    if i == 0 {
      assert (row + rest)[j] == row[j];
    } else {
      var k := Offset(i - 1, |actions|) + j;
      CrossProductPair(polarity, actions, resources[1..], condition, i - 1, j);
      assert rest[k] == NewRule(polarity, actions[j], resources[1..][i - 1], condition);
      assert resources[1..][i - 1] == resources[i];
      IndexPastPrefix(row, rest, k);
      assert Offset(i, |actions|) + j == |row| + k;
    }
  }

  /** The `actions` argument as a list of action names. */
  function ActionsOf(actions: Arg<string>): Result<seq<string>, Error> {
    AsList(actions, (s: string) => s)
  }

  /** The `resources` argument as a list of resources; a string names a resource. */
  function ResourcesOf(resources: Arg<Value>): Result<seq<Value>, Error> {
    AsList(resources, (s: string) => Str(s))
  }

  /**
   * Registration binds a closure condition to the manager. Conditions here see
   * only their argument list, so a closure that can be bound behaves as before.
   * One that cannot be bound makes PHP warn and answer `null`, so the rule
   * constructor receives no condition. Anything else is not bound at all.
   */
  function Bind(condition: ConditionArg): (r: ConditionArg)
    ensures condition.UnbindableClosure? ==> r == NoCondition
    ensures !condition.UnbindableClosure? ==> r == condition
  {
    if condition.UnbindableClosure? then NoCondition else condition
  }

  /**
   * The rules `allow`/`deny` register: both arguments are normalised to
   * lists first, and a malformed one raises before any rule is built; the
   * condition is bound before the rules are built.
   */
  function NewRules(polarity: Polarity, actions: Arg<string>, resources: Arg<Value>, condition: ConditionArg): (r: Result<seq<Rule>, Error>)
    ensures r.Err? <==> actions.OtherValue? || resources.OtherValue?
    ensures r.Ok? ==> r.value == CrossProduct(polarity, ActionsOf(actions).value, ResourcesOf(resources).value, Bind(condition))
  {
    match (ActionsOf(actions), ResourcesOf(resources))
    case (Ok(actionList), Ok(resourceList)) => Ok(CrossProduct(polarity, actionList, resourceList, Bind(condition)))
    case _ => Err(InvalidArgument)
  }

  /**
   * `can`'s resource handling: an object is looked up by its class name and
   * passed to the conditions ahead of the extra arguments; any other value
   * is looked up as it is and the extra arguments pass unchanged.
   */
  function LookupResource(resource: Value): (r: Value)
    ensures resource.Instance? ==> r == Str(resource.cls)
    ensures !resource.Instance? ==> r == resource
  {
    if resource.Instance? then Str(resource.cls) else resource
  }

  function ConditionArguments(resource: Value, extra: seq<Value>): (r: seq<Value>)
    ensures resource.Instance? ==> |r| == |extra| + 1 && r[0] == resource && r[1..] == extra
    ensures !resource.Instance? ==> r == extra
  {
    if resource.Instance? then [resource] + extra else extra
  }
}

=== FILE: authorizable.dfy ===
/**
 * The older engine: rules are looked up by exact action and resource
 * equality (no wildcard, no class-name matching), and a flag chooses
 * between the sequential and the additive decision.
 */
module Authorizable {
  import opened Wrappers
  import opened Values
  import opened Rules
  import opened Collection
  import opened Arguments
  import SequentialStrategy
  import AdditiveStrategy
  import Strategy

  datatype Authorizable = Authorizable(sequential: bool, rules: seq<Rule>)

  /** A new engine decides sequentially and holds no rules. */
  function New(): (a: Authorizable)
    ensures a.sequential && a.rules == []
  {
    Authorizable(true, [])
  }

  /** The filter callback of `getRulesFor`: equality of action and of resource (exact here; PHP's loose `==` is listed under Left out). */
  function ExactlyFor(action: string, resource: Value): Rule -> bool {
    (rule: Rule) => rule.action == action && rule.resource == resource
  }

  /** The rules stored for exactly this action and this resource, in registration order. */
  function GetRulesFor(a: Authorizable, action: string, resource: Value): (r: seq<Rule>)
    ensures |r| <= |a.rules|
    ensures forall k :: 0 <= k < |r| ==> r[k].action == action && r[k].resource == resource
  {
    Filter(a.rules, ExactlyFor(action, resource))
  }

  /** The lookup is an ordered subsequence holding every exact match and nothing else. */
  lemma GetRulesForSelects(a: Authorizable, action: string, resource: Value) returns (idx: seq<int>)
    ensures OrderedSelection(GetRulesFor(a, action, resource), a.rules, idx)
    ensures forall j :: 0 <= j < |a.rules| ==>
      (j in idx <==> a.rules[j].action == action && a.rules[j].resource == resource)
  {
    idx := FilterSelects(a.rules, ExactlyFor(action, resource));
  }

  /** Every exact match is also relevant in the newer engine's sense. */
  lemma ExactMatchesAreRelevant(a: Authorizable, action: string, resource: Value)
    ensures forall k :: 0 <= k < |GetRulesFor(a, action, resource)| ==>
      IsRelevant(GetRulesFor(a, action, resource)[k], One(action), resource)
  {
  }

  /** A rule stored on the wildcard is not returned for any other resource. */
  lemma NoWildcardLookup(a: Authorizable, action: string, resource: Value)
    requires resource != Str(Wildcard)
    ensures forall k :: 0 <= k < |GetRulesFor(a, action, resource)| ==>
      GetRulesFor(a, action, resource)[k].resource != Str(Wildcard)
  {
  }

  /** A rule stored on a class name is not returned for an instance of that class. */
  lemma NoClassNameLookup(a: Authorizable, action: string, cls: string, fields: map<string, Value>)
    ensures forall k :: 0 <= k < |GetRulesFor(a, action, Instance(cls, fields))| ==>
      GetRulesFor(a, action, Instance(cls, fields))[k].resource != Str(cls)
  {
  }

  /** The decision `can` reaches: false without matches, else the mode's verdict. */
  ghost function Decision(a: Authorizable, action: string, resource: Value, extra: seq<Value>): bool {
    var rules := GetRulesFor(a, action, LookupResource(resource));
    var args := ConditionArguments(resource, extra);
    |rules| > 0
    && (if a.sequential then AllAllow(rules, args) || Rules.Check(rules[|rules| - 1], args)
        else SomeAllows(rules, args))
  }

  /**
   * The older engine's inline logic agrees with the manager's strategies:
   * the sequential mode is the sequential strategy's fail-closed check and
   * the additive mode the additive one's.
   */
  lemma DecisionIsStrategyCheck(a: Authorizable, action: string, resource: Value, extra: seq<Value>)
    ensures Decision(a, action, resource, extra)
        == Strategy.Check(if a.sequential then Strategy.Sequential else Strategy.Additive,
                          GetRulesFor(a, action, LookupResource(resource)), ConditionArguments(resource, extra))
  {
  }

  /**
   * `can`: the matching rules are scanned once per rule, and every pass
   * recomputes the same verdict over the whole collection.
   */
  method Can(a: Authorizable, action: string, resource: Value, extra: seq<Value>) returns (allowed: bool)
    ensures allowed == Decision(a, action, resource, extra)
    ensures allowed ==> |GetRulesFor(a, action, LookupResource(resource))| > 0
  {
    var args := ConditionArguments(resource, extra);
    allowed := false;
    var rules := GetRulesFor(a, action, LookupResource(resource));
    if |rules| > 0 {
      var i := 0;
      while i < |rules|
        invariant 0 <= i <= |rules|
        invariant i > 0 ==> allowed == (if a.sequential then SequentialStrategy.Apply(rules, args)
                                        else AdditiveStrategy.Apply(rules, args))
      {
        if a.sequential {
          allowed := SequentialStrategy.Apply(rules, args);
        } else {
          allowed := AdditiveStrategy.Apply(rules, args);
        }
        i := i + 1;
      }
    }
  }

  method Cannot(a: Authorizable, action: string, resource: Value, extra: seq<Value>) returns (denied: bool)
    ensures denied == !Decision(a, action, resource, extra)
  {
    var allowed := Can(a, action, resource, extra);
    denied := !allowed;
  }

  /** Appends one rule per (resource, action) pair; a malformed argument raises and adds nothing. */
  function AddRules(a: Authorizable, polarity: Polarity, actions: Arg<string>, resources: Arg<Value>, condition: ConditionArg): (r: Result<Authorizable, Error>)
    ensures r.Err? <==> actions.OtherValue? || resources.OtherValue?
    ensures r.Ok? ==> r.value.sequential == a.sequential
    ensures r.Ok? ==>
      r.value.rules == a.rules + CrossProduct(polarity, ActionsOf(actions).value, ResourcesOf(resources).value, Bind(condition))
    ensures r.Ok? ==> forall k :: |a.rules| <= k < |r.value.rules| ==> r.value.rules[k].polarity == polarity
  {
    match NewRules(polarity, actions, resources, condition)
    case Ok(added) =>
      CrossProductMembers(polarity, ActionsOf(actions).value, ResourcesOf(resources).value, Bind(condition));
      assert forall k :: |a.rules| <= k < |a.rules + added| ==> (a.rules + added)[k] == added[k - |a.rules|];
      Ok(a.(rules := a.rules + added))
    case Err(e) => Err(e)
  }

  function Allow(a: Authorizable, actions: Arg<string>, resources: Arg<Value>, condition: ConditionArg): (r: Result<Authorizable, Error>)
    ensures r.Err? <==> actions.OtherValue? || resources.OtherValue?
    ensures r.Ok? ==> |a.rules| <= |r.value.rules| && r.value.rules[..|a.rules|] == a.rules
    ensures r.Ok? ==> forall k :: |a.rules| <= k < |r.value.rules| ==> r.value.rules[k].polarity == Privilege
  {
    AddRules(a, Privilege, actions, resources, condition)
  }

  function Deny(a: Authorizable, actions: Arg<string>, resources: Arg<Value>, condition: ConditionArg): (r: Result<Authorizable, Error>)
    ensures r.Err? <==> actions.OtherValue? || resources.OtherValue?
    ensures r.Ok? ==> |a.rules| <= |r.value.rules| && r.value.rules[..|a.rules|] == a.rules
    ensures r.Ok? ==> forall k :: |a.rules| <= k < |r.value.rules| ==> r.value.rules[k].polarity == Restriction
  {
    AddRules(a, Restriction, actions, resources, condition)
  }

  function GetRules(a: Authorizable): seq<Rule> {
    a.rules
  }

  /** Switches to the sequential decision; the rules stay as they are. */
  function SetCheckToSequential(a: Authorizable): (r: Authorizable)
    ensures r.sequential && r.rules == a.rules
  {
    a.(sequential := true)
  }

  /** Switches to the additive decision; the rules stay as they are. */
  function SetCheckToAdditive(a: Authorizable): (r: Authorizable)
    ensures !r.sequential && r.rules == a.rules
  {
    a.(sequential := false)
  }

  /** Registering one rule for one action and one named resource extends each lookup by that rule, if it matches exactly. */
  lemma AddedRuleLookup(a: Authorizable, polarity: Polarity, action: string, name: string, condition: ConditionArg,
                        queryAction: string, resource: Value)
    ensures AddRules(a, polarity, Scalar(action), Scalar(name), condition).Ok?
    ensures
      var rule := NewRule(polarity, action, Str(name), Bind(condition));
      GetRulesFor(AddRules(a, polarity, Scalar(action), Scalar(name), condition).value, queryAction, resource)
        == GetRulesFor(a, queryAction, resource)
         + (if action == queryAction && Str(name) == resource then [rule] else [])
  {
    var rule := NewRule(polarity, action, Str(name), Bind(condition));
    var keep := ExactlyFor(queryAction, resource);
    assert CrossProduct(polarity, [action], [Str(name)], Bind(condition)) == [rule];
    FilterAppend(a.rules, [rule], keep);
    assert [rule][1..] == [];
  }
}

=== FILE: authorizable_scenarios.dfy ===
/** The older engine's documented scenarios: how many rules are stored and found. */
module AuthorizableScenarios {
  import opened Values
  import opened Rules
  import opened Arguments
  import opened Authorizable

  /** Registers one unconditional rule for one action on one named resource; such arguments never raise. */
  function Add(a: Authorizable, polarity: Polarity, action: string, name: string): Authorizable {
    AddRules(a, polarity, Scalar(action), Scalar(name), NoCondition).value
  }

  /** One privilege and one restriction make two stored rules. */
  lemma StoresRules()
    ensures |GetRules(Add(Add(New(), Privilege, "read", "User"), Restriction, "update", "User"))| == 2
    ensures |GetRules(Add(Add(New(), Restriction, "create", "User"), Privilege, "read", "User"))| == 2
  {
  }

  /** Five rules on "User", two of them for read. */
  lemma LookupCount()
    ensures
      var a := Add(Add(Add(Add(Add(New(), Restriction, "create", "User"), Privilege, "read", "User"),
                           Restriction, "update", "User"), Restriction, "delete", "User"),
                   Restriction, "read", "User");
      |GetRulesFor(a, "read", Str("User"))| == 2 && |GetRules(a)| == 5
  {
    var a0 := New();
    var a1 := Add(a0, Restriction, "create", "User");
    var a2 := Add(a1, Privilege, "read", "User");
    var a3 := Add(a2, Restriction, "update", "User");
    var a4 := Add(a3, Restriction, "delete", "User");
    AddedRuleLookup(a0, Restriction, "create", "User", NoCondition, "read", Str("User"));
    AddedRuleLookup(a1, Privilege, "read", "User", NoCondition, "read", Str("User"));
    AddedRuleLookup(a2, Restriction, "update", "User", NoCondition, "read", Str("User"));
    AddedRuleLookup(a3, Restriction, "delete", "User", NoCondition, "read", Str("User"));
    AddedRuleLookup(a4, Restriction, "read", "User", NoCondition, "read", Str("User"));
  }
}

=== FILE: collection.dfy ===
/**
 * The rule collection: an ordered sequence of rules and its relevance
 * filter, built on the collection's order-preserving `filter`.
 */
module Collection {
  import opened Values
  import opened Rules

  /** The collection's `filter`: keeps the rules `keep` accepts, in their original order. */
  function Filter<T>(rules: seq<T>, keep: T -> bool): (r: seq<T>)
    ensures |r| <= |rules|
    ensures forall k :: 0 <= k < |r| ==> keep(r[k])
    decreases |rules|
  {
    if |rules| == 0 then []
    else if keep(rules[0]) then [rules[0]] + Filter(rules[1..], keep)
    else Filter(rules[1..], keep)
  }

  /** `sub` is `rules` read at the strictly increasing positions `idx`. */
  ghost predicate OrderedSelection<T>(sub: seq<T>, rules: seq<T>, idx: seq<int>) {
    && |idx| == |sub|
    && (forall k :: 0 <= k < |idx| ==> 0 <= idx[k] < |rules| && sub[k] == rules[idx[k]])
    && (forall k, l :: 0 <= k < l < |idx| ==> idx[k] < idx[l])
  }

  /** Every position moved one to the right. */
  function Shift(idx: seq<int>): (r: seq<int>)
    ensures |r| == |idx|
    ensures forall k :: 0 <= k < |idx| ==> r[k] == idx[k] + 1
  {
    seq(|idx|, k requires 0 <= k < |idx| => idx[k] + 1)
  }

  /** A selection from the tail of `rules` is, shifted by one, a selection from `rules`. */
  lemma ShiftSelection<T>(sub: seq<T>, rules: seq<T>, idx: seq<int>)
    requires |rules| > 0
    requires OrderedSelection(sub, rules[1..], idx)
    ensures OrderedSelection(sub, rules, Shift(idx))
    ensures forall k :: 0 <= k < |idx| ==> 1 <= Shift(idx)[k]
    ensures forall j :: 1 <= j < |rules| ==> (j in Shift(idx) <==> j - 1 in idx)
  {
    var shifted := Shift(idx);
    forall j | 1 <= j < |rules|
      ensures j in shifted <==> j - 1 in idx
    {
      if j in shifted {
        var k :| 0 <= k < |shifted| && shifted[k] == j;
        assert idx[k] == j - 1;
      }
      if j - 1 in idx {
        var k :| 0 <= k < |idx| && idx[k] == j - 1;
        assert shifted[k] == j;
      }
    }
  }

  /** Putting the first rule in front of a selection from the remaining positions. */
  lemma PrependSelection<T>(sub: seq<T>, rules: seq<T>, idx: seq<int>)
    requires |rules| > 0
    requires OrderedSelection(sub, rules, idx)
    requires forall k :: 0 <= k < |idx| ==> 1 <= idx[k]
    ensures OrderedSelection([rules[0]] + sub, rules, [0] + idx)
  {
  }

  /**
   * The filter's result is an ordered subsequence of the input, taken at
   * exactly the positions of the accepted rules.
   */
  lemma {:induction false} FilterSelects<T>(rules: seq<T>, keep: T -> bool) returns (idx: seq<int>)
    ensures OrderedSelection(Filter(rules, keep), rules, idx)
    ensures forall j :: 0 <= j < |rules| ==> (j in idx <==> keep(rules[j]))
    decreases |rules|
  {
    if |rules| == 0 {
      idx := [];
    } else {
      var tail := Filter(rules[1..], keep);
      var rest := FilterSelects(rules[1..], keep);
      ShiftSelection(tail, rules, rest);
      var shifted := Shift(rest);
      assert 0 !in shifted;
      if keep(rules[0]) {
        PrependSelection(tail, rules, shifted);
        idx := [0] + shifted;
      } else {
        idx := shifted;
      }
    }
  }

  /** One step of the filter at position `k`: that element is kept exactly when accepted, ahead of the filtered rest. */
  lemma FilterStep<T>(xs: seq<T>, k: nat, keep: T -> bool)
    requires k < |xs|
    ensures Filter(xs[k..], keep) == (if keep(xs[k]) then [xs[k]] else []) + Filter(xs[k + 1..], keep)
  {
    assert xs[k..][1..] == xs[k + 1..];
  }

  /** Two filter tests that agree on every element select the same elements. */
  lemma {:induction false} FilterSameTest<T>(xs: seq<T>, keep: T -> bool, keep': T -> bool)
    requires forall k :: 0 <= k < |xs| ==> keep(xs[k]) == keep'(xs[k])
    ensures Filter(xs, keep) == Filter(xs, keep')
    decreases |xs|
  {
    if |xs| > 0 {
      FilterSameTest(xs[1..], keep, keep');
    }
  }

  /** The filter over six elements, unfolded element by element. */
  lemma FilterSix<T>(xs: seq<T>, keep: T -> bool)
    requires |xs| == 6
    ensures Filter(xs, keep)
         == (if keep(xs[0]) then [xs[0]] else []) + ((if keep(xs[1]) then [xs[1]] else [])
          + ((if keep(xs[2]) then [xs[2]] else []) + ((if keep(xs[3]) then [xs[3]] else [])
          + ((if keep(xs[4]) then [xs[4]] else []) + (if keep(xs[5]) then [xs[5]] else [])))))
  {
    assert xs[6..] == [] && xs[0..] == xs;
    FilterStep(xs, 5, keep);
    var f5 := (if keep(xs[5]) then [xs[5]] else []);
    assert Filter(xs[5..], keep) == f5;
    FilterStep(xs, 4, keep);
    var f4 := (if keep(xs[4]) then [xs[4]] else []) + f5;
    assert Filter(xs[4..], keep) == f4;
    FilterStep(xs, 3, keep);
    var f3 := (if keep(xs[3]) then [xs[3]] else []) + f4;
    assert Filter(xs[3..], keep) == f3;
    FilterStep(xs, 2, keep);
    var f2 := (if keep(xs[2]) then [xs[2]] else []) + f3;
    assert Filter(xs[2..], keep) == f2;
    FilterStep(xs, 1, keep);
    var f1 := (if keep(xs[1]) then [xs[1]] else []) + f2;
    assert Filter(xs[1..], keep) == f1;
    FilterStep(xs, 0, keep);
  }

  /** Nothing accepted is dropped: every accepted rule occurs in the result. */
  lemma FilterComplete<T>(rules: seq<T>, keep: T -> bool, j: int)
    requires 0 <= j < |rules| && keep(rules[j])
    ensures exists k :: 0 <= k < |Filter(rules, keep)| && Filter(rules, keep)[k] == rules[j]
  {
    var idx := FilterSelects(rules, keep);
    assert j in idx;
    var k :| 0 <= k < |idx| && idx[k] == j;
    assert Filter(rules, keep)[k] == rules[j];
  }

  /** Filtering a concatenation filters each part. */
  lemma {:induction false} FilterAppend<T>(a: seq<T>, b: seq<T>, keep: T -> bool)
    ensures Filter(a + b, keep) == Filter(a, keep) + Filter(b, keep)
    decreases |a|
  {
    if |a| == 0 {
      assert a + b == b;
    } else {
      assert (a + b)[1..] == a[1..] + b;
      FilterAppend(a[1..], b, keep);
    }
  }

  /** A sequence whose every rule is accepted passes through unchanged. */
  lemma {:induction false} FilterKeepsAll<T>(rules: seq<T>, keep: T -> bool)
    requires forall k :: 0 <= k < |rules| ==> keep(rules[k])
    ensures Filter(rules, keep) == rules
    decreases |rules|
  {
    if |rules| > 0 {
      FilterKeepsAll(rules[1..], keep);
    }
  }

  /** Filtering twice with the same test is filtering once. */
  lemma FilterIdempotent<T>(rules: seq<T>, keep: T -> bool)
    ensures Filter(Filter(rules, keep), keep) == Filter(rules, keep)
  {
    FilterKeepsAll(Filter(rules, keep), keep);
  }

  /** The filter finds nothing exactly when no element is accepted. */
  lemma {:induction false} FilterEmpty<T>(xs: seq<T>, keep: T -> bool)
    ensures |Filter(xs, keep)| == 0 <==> forall j :: 0 <= j < |xs| ==> !keep(xs[j])
    decreases |xs|
  {
    if |xs| > 0 {
      FilterEmpty(xs[1..], keep);
      assert forall j :: 1 <= j < |xs| ==> xs[j] == xs[1..][j - 1];
    }
  }

  /** `p` lists every position below `n` exactly once. */
  ghost predicate IsPermutation(p: seq<int>, n: int) {
    && |p| == n
    && (forall i :: 0 <= i < |p| ==> 0 <= p[i] < n)
    && (forall j :: 0 <= j < n ==> j in p)
  }

  /** The sequence read in the order `p` gives. */
  function Reorder<T>(xs: seq<T>, p: seq<int>): (r: seq<T>)
    requires forall i :: 0 <= i < |p| ==> 0 <= p[i] < |xs|
    ensures |r| == |p|
    ensures forall i :: 0 <= i < |p| ==> r[i] == xs[p[i]]
  {
    seq(|p|, i requires 0 <= i < |p| => xs[p[i]])
  }

  /** The relevance test for one query, as a filter callback. */
  function RelevantTo(q: ActionQuery, resource: Value): Rule -> bool {
    rule => IsRelevant(rule, q, resource)
  }

  /** The rules relevant to an action (or actions) and a resource, in collection order. */
  function Relevant(rules: seq<Rule>, q: ActionQuery, resource: Value): (r: seq<Rule>)
    ensures |r| <= |rules|
    ensures forall k :: 0 <= k < |r| ==> r[k].action in ActionList(q) && MatchesResource(r[k], resource)
  {
    Filter(rules, RelevantTo(q, resource))
  }

  /** The relevant rules are an ordered subsequence holding every relevant rule and only those. */
  lemma RelevantSelects(rules: seq<Rule>, q: ActionQuery, resource: Value) returns (idx: seq<int>)
    ensures OrderedSelection(Relevant(rules, q, resource), rules, idx)
    ensures forall j :: 0 <= j < |rules| ==> (j in idx <==> IsRelevant(rules[j], q, resource))
  {
    idx := FilterSelects(rules, RelevantTo(q, resource));
  }

  /** Every relevant rule of the collection is returned. */
  lemma RelevantComplete(rules: seq<Rule>, q: ActionQuery, resource: Value, j: int)
    requires 0 <= j < |rules| && IsRelevant(rules[j], q, resource)
    ensures exists k :: 0 <= k < |Relevant(rules, q, resource)| && Relevant(rules, q, resource)[k] == rules[j]
  {
    var idx := RelevantSelects(rules, q, resource);
    assert j in idx;
    var k :| 0 <= k < |idx| && idx[k] == j;
    assert Relevant(rules, q, resource)[k] == rules[j];
  }

  /** Asking again with the same action and resource returns the same rules. */
  lemma RelevantIdempotent(rules: seq<Rule>, q: ActionQuery, resource: Value)
    ensures Relevant(Relevant(rules, q, resource), q, resource) == Relevant(rules, q, resource)
  {
    FilterIdempotent(rules, RelevantTo(q, resource));
  }

  /** Appending rules appends their relevant part. */
  lemma RelevantAppend(a: seq<Rule>, b: seq<Rule>, q: ActionQuery, resource: Value)
    ensures Relevant(a + b, q, resource) == Relevant(a, q, resource) + Relevant(b, q, resource)
  {
    FilterAppend(a, b, RelevantTo(q, resource));
  }

  /** Appending one rule appends it to the relevant rules exactly when it is relevant. */
  lemma RelevantSnoc(rules: seq<Rule>, x: Rule, q: ActionQuery, resource: Value)
    ensures Relevant(rules + [x], q, resource)
         == Relevant(rules, q, resource) + (if IsRelevant(x, q, resource) then [x] else [])
  {
    RelevantAppend(rules, [x], q, resource);
    assert [x][1..] == [];
  }

  /** One step of the relevance filter: the first rule is kept exactly when it is relevant. */
  lemma RelevantCons(x: Rule, rest: seq<Rule>, q: ActionQuery, resource: Value)
    ensures Relevant([x] + rest, q, resource)
         == (if IsRelevant(x, q, resource) then [x] else []) + Relevant(rest, q, resource)
  {
    assert ([x] + rest)[1..] == rest;
  }
}

=== FILE: manager.dfy ===
/**
 * The manager: an ordered rule set that grows through `allow`/`deny`, and a
 * swappable strategy that decides `can` over the rules relevant to a request.
 */
module Manager {
  import opened Wrappers
  import opened Values
  import opened Rules
  import opened Collection
  import opened Arguments
  import Strategy

  datatype Manager = Manager(strategy: Strategy.Strategy, rules: seq<Rule>)

  /** `setStrategy`: a missing strategy means the sequential one; the rules stay as they are. */
  function SetStrategy(m: Manager, strategy: Option<Strategy.Strategy>): (r: Manager)
    ensures r.rules == m.rules
    ensures strategy.None? ==> r.strategy == Strategy.Sequential
    ensures strategy.Some? ==> r.strategy == strategy.value
  {
    m.(strategy := if strategy.Some? then strategy.value else Strategy.Sequential)
  }

  /** The constructor: the strategy as `setStrategy` chooses it, and no rules. */
  function New(strategy: Option<Strategy.Strategy>): (m: Manager)
    ensures m.rules == []
    ensures m.strategy == (if strategy.Some? then strategy.value else Strategy.Sequential)
  {
    SetStrategy(Manager(Strategy.Sequential, []), strategy)
  }

  function GetRules(m: Manager): seq<Rule> {
    m.rules
  }

  /** The registered rules relevant to an action (or actions) and a resource, in registration order. */
  function GetRelevantRules(m: Manager, q: ActionQuery, resource: Value): (r: seq<Rule>)
    ensures |r| <= |m.rules|
    ensures forall k :: 0 <= k < |r| ==> IsRelevant(r[k], q, resource)
  {
    Relevant(m.rules, q, resource)
  }

  /**
   * The decision for a request. An object resource is looked up by its
   * class name and handed to the conditions as their first argument; the
   * current strategy decides over the relevant rules.
   */
  function Can(m: Manager, q: ActionQuery, resource: Value, extra: seq<Value>): (r: bool)
    ensures
      var rules := GetRelevantRules(m, q, LookupResource(resource));
      var args := ConditionArguments(resource, extra);
      && (r ==> |rules| > 0)
      && (m.strategy == Strategy.Sequential ==> (r <==> |rules| > 0 && Rules.Check(rules[|rules| - 1], args)))
      && (m.strategy == Strategy.Subtractive ==> (r <==> |rules| > 0 && AllAllow(rules, args)))
      && (m.strategy == Strategy.Additive ==> (r <==> SomeAllows(rules, args)))
  {
    Strategy.Check(m.strategy, GetRelevantRules(m, q, LookupResource(resource)), ConditionArguments(resource, extra))
  }

  function Cannot(m: Manager, q: ActionQuery, resource: Value, extra: seq<Value>): (r: bool)
    ensures r <==> !Can(m, q, resource, extra)
  {
    !Can(m, q, resource, extra)
  }

  /**
   * `canAny` as written: its loop runs over a variable that is never
   * defined, so the loop body never executes and the answer is false.
   */
  function CanAny(m: Manager, actions: seq<string>, resource: Value, extra: seq<Value>): (r: bool)
    ensures !r
  {
    false
  }

  /** `canAll` as written: the same undefined loop variable, so the answer is true. */
  function CanAll(m: Manager, actions: seq<string>, resource: Value, extra: seq<Value>): (r: bool)
    ensures r
  {
    true
  }

  /**
   * Builds one rule per (resource, action) pair and appends them to the
   * rule set; returns the new manager and the new rules alone.
   */
  function AddRules(m: Manager, polarity: Polarity, actions: Arg<string>, resources: Arg<Value>, condition: ConditionArg): (r: Result<(Manager, seq<Rule>), Error>)
    ensures r.Err? <==> actions.OtherValue? || resources.OtherValue?
    ensures r.Ok? ==> r.value.0.strategy == m.strategy && r.value.0.rules == m.rules + r.value.1
    ensures r.Ok? ==> forall k :: 0 <= k < |r.value.1| ==> r.value.1[k].polarity == polarity
    ensures r.Ok? ==> r.value.1 == CrossProduct(polarity, ActionsOf(actions).value, ResourcesOf(resources).value, Bind(condition))
  {
    match NewRules(polarity, actions, resources, condition)
    case Ok(added) =>
      CrossProductMembers(polarity, ActionsOf(actions).value, ResourcesOf(resources).value, Bind(condition));
      assert added == CrossProduct(polarity, ActionsOf(actions).value, ResourcesOf(resources).value, Bind(condition));
      Ok((Manager(m.strategy, m.rules + added), added))
    case Err(e) => Err(e)
  }

  /** Registers privileges. */
  function Allow(m: Manager, actions: Arg<string>, resources: Arg<Value>, condition: ConditionArg): (r: Result<(Manager, seq<Rule>), Error>)
    ensures r.Err? <==> actions.OtherValue? || resources.OtherValue?
    ensures r.Ok? ==> r.value.0.rules == m.rules + r.value.1
    ensures r.Ok? ==> forall k :: 0 <= k < |r.value.1| ==> r.value.1[k].polarity == Privilege
  {
    AddRules(m, Privilege, actions, resources, condition)
  }

  /** Registers restrictions. */
  function Deny(m: Manager, actions: Arg<string>, resources: Arg<Value>, condition: ConditionArg): (r: Result<(Manager, seq<Rule>), Error>)
    ensures r.Err? <==> actions.OtherValue? || resources.OtherValue?
    ensures r.Ok? ==> r.value.0.rules == m.rules + r.value.1
    ensures r.Ok? ==> forall k :: 0 <= k < |r.value.1| ==> r.value.1[k].polarity == Restriction
  {
    AddRules(m, Restriction, actions, resources, condition)
  }

  /** Asking about an object is asking about its class name with the object as the first extra argument. */
  lemma CanOnInstance(m: Manager, q: ActionQuery, cls: string, fields: map<string, Value>, extra: seq<Value>)
    ensures Can(m, q, Instance(cls, fields), extra) == Can(m, q, Str(cls), [Instance(cls, fields)] + extra)
  {
  }

  /** Registering one rule for one action and one named resource extends each relevant list by that rule, if relevant. */
  lemma AddedRuleRelevance(m: Manager, polarity: Polarity, action: string, name: string, condition: ConditionArg,
                           q: ActionQuery, resource: Value)
    ensures AddRules(m, polarity, Scalar(action), Scalar(name), condition).Ok?
    ensures
      var rule := NewRule(polarity, action, Str(name), Bind(condition));
      GetRelevantRules(AddRules(m, polarity, Scalar(action), Scalar(name), condition).value.0, q, resource)
        == GetRelevantRules(m, q, resource) + (if IsRelevant(rule, q, resource) then [rule] else [])
  {
    var r := AddRules(m, polarity, Scalar(action), Scalar(name), condition);
    var added := r.value.1;
    assert added == [NewRule(polarity, action, Str(name), Bind(condition))];
    RelevantAppend(m.rules, added, q, resource);
    RelevantCons(added[0], [], q, resource);
  }

  /** A single unconditional rule registered for one action and one named resource. */
  lemma SingleRuleRelevant(m: Manager, polarity: Polarity, action: string, name: string, r: Result<(Manager, seq<Rule>), Error>)
    requires r == AddRules(m, polarity, Scalar(action), Scalar(name), NoCondition)
    ensures r.Ok?
    ensures GetRelevantRules(r.value.0, One(action), Str(name))
         == GetRelevantRules(m, One(action), Str(name)) + [NewRule(polarity, action, Str(name), NoCondition)]
  {
    AddedRuleRelevance(m, polarity, action, name, NoCondition, One(action), Str(name));
  }

  /** Under the sequential strategy the latest unconditional rule decides its own action and resource. */
  lemma SequentialLatestRuleWins(m: Manager, polarity: Polarity, action: string, name: string, extra: seq<Value>)
    requires m.strategy == Strategy.Sequential
    ensures AddRules(m, polarity, Scalar(action), Scalar(name), NoCondition).Ok?
    ensures Can(AddRules(m, polarity, Scalar(action), Scalar(name), NoCondition).value.0, One(action), Str(name), extra)
        <==> polarity == Privilege
  {
    SingleRuleRelevant(m, polarity, action, name, AddRules(m, polarity, Scalar(action), Scalar(name), NoCondition));
  }

  /**
   * A privilege whose closure condition can be bound is decided, under the
   * sequential strategy, by that condition on the caller's arguments.
   */
  lemma BoundConditionDecides(m: Manager, action: string, name: string, f: Condition, extra: seq<Value>)
    requires m.strategy == Strategy.Sequential
    ensures Allow(m, Scalar(action), Scalar(name), Closure(f)).Ok?
    ensures Can(Allow(m, Scalar(action), Scalar(name), Closure(f)).value.0, One(action), Str(name), extra) == f(extra)
  {
    AddedRuleRelevance(m, Privilege, action, name, Closure(f), One(action), Str(name));
  }

  /**
   * A closure that cannot be bound reaches the rule as `null`, so the rule is
   * stored without a condition: under the sequential strategy the privilege
   * grants its action on its resource whatever the arguments, while the
   * closure would have been consulted had it been bindable.
   */
  lemma UnbindableConditionFailsOpen(m: Manager, action: string, name: string, f: Condition, extra: seq<Value>)
    requires m.strategy == Strategy.Sequential
    ensures Allow(m, Scalar(action), Scalar(name), UnbindableClosure(f)).Ok?
    ensures Allow(m, Scalar(action), Scalar(name), UnbindableClosure(f)).value.1
         == [NewRule(Privilege, action, Str(name), NoCondition)]
    ensures Can(Allow(m, Scalar(action), Scalar(name), UnbindableClosure(f)).value.0, One(action), Str(name), extra)
  {
    AddedRuleRelevance(m, Privilege, action, name, UnbindableClosure(f), One(action), Str(name));
  }

  /** Under the subtractive strategy an unconditional denial vetoes, whatever is registered afterwards. */
  lemma SubtractiveDenialIsFinal(m: Manager, action: string, name: string, later: seq<Rule>, extra: seq<Value>)
    requires m.strategy == Strategy.Subtractive
    ensures Deny(m, Scalar(action), Scalar(name), NoCondition).Ok?
    ensures !Can(Manager(m.strategy, Deny(m, Scalar(action), Scalar(name), NoCondition).value.0.rules + later),
                 One(action), Str(name), extra)
  {
    var r := Deny(m, Scalar(action), Scalar(name), NoCondition);
    SingleRuleRelevant(m, Restriction, action, name, r);
    var denial := NewRule(Restriction, action, Str(name), NoCondition);
    var before := GetRelevantRules(m, One(action), Str(name));
    RelevantAppend(r.value.0.rules, later, One(action), Str(name));
    var rules := before + [denial] + Relevant(later, One(action), Str(name));
    assert rules[|before|] == denial;
    assert !Rules.Check(rules[|before|], extra);
  }

  /** Under the additive strategy an unconditional privilege grants, whatever is registered afterwards. */
  lemma AdditivePrivilegeIsFinal(m: Manager, action: string, name: string, later: seq<Rule>, extra: seq<Value>)
    requires m.strategy == Strategy.Additive
    ensures Allow(m, Scalar(action), Scalar(name), NoCondition).Ok?
    ensures Can(Manager(m.strategy, Allow(m, Scalar(action), Scalar(name), NoCondition).value.0.rules + later),
                One(action), Str(name), extra)
  {
    var r := Allow(m, Scalar(action), Scalar(name), NoCondition);
    SingleRuleRelevant(m, Privilege, action, name, r);
    var privilege := NewRule(Privilege, action, Str(name), NoCondition);
    var before := GetRelevantRules(m, One(action), Str(name));
    RelevantAppend(r.value.0.rules, later, One(action), Str(name));
    var rules := before + [privilege] + Relevant(later, One(action), Str(name));
    assert rules[|before|] == privilege;
    assert Rules.Check(rules[|before|], extra);
  }
}

=== FILE: manager_scenarios.dfy ===
/**
 * The manager's documented scenarios: rule registration, relevance
 * counts, and decisions on names, on objects and with extra arguments.
 */
module ManagerScenarios {
  import opened Wrappers
  import opened Values
  import opened Rules
  import opened Arguments
  import opened Manager
  import Strategy

  /** Registers one rule for one action on one named resource; such arguments never raise. */
  function Add(m: Manager, polarity: Polarity, action: string, name: string, condition: ConditionArg): Manager {
    AddRules(m, polarity, Scalar(action), Scalar(name), condition).value.0
  }

  /** An object of class `stdClass` with the given `id`. */
  function Object(id: int): Value {
    Instance("stdClass", map["id" := Int(id)])
  }

  /** The condition's first argument is an object whose `id` is 1. */
  predicate FirstHasIdOne(args: seq<Value>) {
    |args| > 0 && args[0].Instance? && "id" in args[0].fields && args[0].fields["id"] == Int(1)
  }

  /** The second condition argument, `null` when the caller passed none. */
  function Extra(args: seq<Value>): Value {
    if |args| > 1 then args[1] else Null
  }

  /** Privileges for create and read and a restriction for update, all on "User", with the default strategy. */
  function NamedScenario(): Manager {
    Add(Add(Add(New(None), Privilege, "create", "User", NoCondition),
            Privilege, "read", "User", NoCondition),
        Restriction, "update", "User", NoCondition)
  }

  /** In the named-resource scenario each action finds its own rule, and an unknown action finds none. */
  lemma NamedScenarioRelevance(action: string)
    ensures GetRelevantRules(NamedScenario(), One(action), Str("User"))
         == if action == "create" then [NewRule(Privilege, "create", Str("User"), NoCondition)]
            else if action == "read" then [NewRule(Privilege, "read", Str("User"), NoCondition)]
            else if action == "update" then [NewRule(Restriction, "update", Str("User"), NoCondition)]
            else []
  {
    var m0 := New(None);
    var m1 := Add(m0, Privilege, "create", "User", NoCondition);
    var m2 := Add(m1, Privilege, "read", "User", NoCondition);
    AddedRuleRelevance(m0, Privilege, "create", "User", NoCondition, One(action), Str("User"));
    AddedRuleRelevance(m1, Privilege, "read", "User", NoCondition, One(action), Str("User"));
    AddedRuleRelevance(m2, Restriction, "update", "User", NoCondition, One(action), Str("User"));
  }

  /** Under the default (sequential) strategy create and read are granted by their privileges. */
  lemma NamedCreateAndRead()
    ensures NamedScenario().strategy == Strategy.Sequential
    ensures Can(NamedScenario(), One("create"), Str("User"), [])
    ensures !Cannot(NamedScenario(), One("read"), Str("User"), [])
  {
    NamedScenarioRelevance("create");
    NamedScenarioRelevance("read");
  }

  /** Update is denied by its restriction. */
  lemma NamedUpdate()
    ensures !Can(NamedScenario(), One("update"), Str("User"), [])
    ensures Cannot(NamedScenario(), One("update"), Str("User"), [])
  {
    NamedScenarioRelevance("update");
  }

  /** An action without rules is denied (fail closed). */
  lemma NamedUndefined()
    ensures !Can(NamedScenario(), One("undefined"), Str("User"), [])
    ensures Cannot(NamedScenario(), One("undefined"), Str("User"), [])
  {
    NamedScenarioRelevance("undefined");
  }

  /** Registering one unconditional rule on "User" adds one rule, and one rule relevant to reading "User" exactly when it is for read. */
  lemma AddCountsForRead(m: Manager, polarity: Polarity, action: string)
    ensures |Add(m, polarity, action, "User", NoCondition).rules| == |m.rules| + 1
    ensures |GetRelevantRules(Add(m, polarity, action, "User", NoCondition), One("read"), Str("User"))|
         == |GetRelevantRules(m, One("read"), Str("User"))| + (if action == "read" then 1 else 0)
  {
    AddedRuleRelevance(m, polarity, action, "User", NoCondition, One("read"), Str("User"));
  }

  /** Five rules on "User", two of them for read. */
  lemma RelevantCount()
    ensures
      var m := Add(Add(Add(Add(Add(New(None), Restriction, "create", "User", NoCondition),
                                   Privilege, "read", "User", NoCondition),
                               Restriction, "update", "User", NoCondition),
                           Restriction, "delete", "User", NoCondition),
                       Restriction, "read", "User", NoCondition);
      |GetRelevantRules(m, One("read"), Str("User"))| == 2 && |GetRules(m)| == 5
  {
    var m0 := New(None);
    var m1 := Add(m0, Restriction, "create", "User", NoCondition);
    var m2 := Add(m1, Privilege, "read", "User", NoCondition);
    var m3 := Add(m2, Restriction, "update", "User", NoCondition);
    var m4 := Add(m3, Restriction, "delete", "User", NoCondition);
    AddCountsForRead(m0, Restriction, "create");
    AddCountsForRead(m1, Privilege, "read");
    AddCountsForRead(m2, Restriction, "update");
    AddCountsForRead(m3, Restriction, "delete");
    AddCountsForRead(m4, Restriction, "read");
  }

  /** `allow` returns privileges and `deny` restrictions, and both land in the rule set. */
  lemma RegisteredRules()
    ensures
      var r1 := Allow(New(None), Scalar("read"), Scalar("User"), NoCondition);
      var r2 := Deny(r1.value.0, Scalar("update"), Scalar("User"), NoCondition);
      && |GetRules(r2.value.0)| == 2
      && |r1.value.1| == 1 && r1.value.1[0].polarity == Privilege && GetRules(r2.value.0)[0] == r1.value.1[0]
      && |r2.value.1| == 1 && r2.value.1[0].polarity == Restriction && GetRules(r2.value.0)[1] == r2.value.1[0]
  {
  }

  /** The object scenario: read needs id 1, update is denied unless the id is 1. */
  function ObjectScenario(): Manager {
    Add(Add(New(None), Privilege, "read", "stdClass", Closure(args => FirstHasIdOne(args))),
        Restriction, "update", "stdClass", Closure(args => !FirstHasIdOne(args)))
  }

  /** Each action of the object scenario has exactly its own rule. */
  lemma ObjectScenarioRelevance(action: string)
    requires action == "read" || action == "update"
    ensures |GetRelevantRules(ObjectScenario(), One(action), Str("stdClass"))| == 1
    ensures
      var rule := GetRelevantRules(ObjectScenario(), One(action), Str("stdClass"))[0];
      && rule.polarity == (if action == "read" then Privilege else Restriction)
      && rule.condition.Some?
      && (forall args :: rule.condition.value(args) == (if action == "read" then FirstHasIdOne(args) else !FirstHasIdOne(args)))
  {
    var m0 := New(None);
    var m1 := Add(m0, Privilege, "read", "stdClass", Closure(args => FirstHasIdOne(args)));
    AddedRuleRelevance(m0, Privilege, "read", "stdClass", Closure(args => FirstHasIdOne(args)), One(action), Str("stdClass"));
    AddedRuleRelevance(m1, Restriction, "update", "stdClass", Closure(args => !FirstHasIdOne(args)), One(action), Str("stdClass"));
  }

  /** Reading the object itself: the condition receives it and decides by its id. */
  lemma ObjectReadDecisions()
    ensures Can(ObjectScenario(), One("read"), Object(1), [])
    ensures !Can(ObjectScenario(), One("read"), Object(2), [])
  {
    ObjectScenarioRelevance("read");
  }

  /** Updating the object itself: the restriction applies unless the id is 1. */
  lemma ObjectUpdateDecisions()
    ensures Can(ObjectScenario(), One("update"), Object(1), [])
    ensures !Can(ObjectScenario(), One("update"), Object(2), [])
    ensures !Cannot(ObjectScenario(), One("update"), Object(1), [])
    ensures Cannot(ObjectScenario(), One("update"), Object(2), [])
  {
    ObjectScenarioRelevance("update");
  }

  /** The read privilege of the extra-argument scenario: id 1 and a truthy extra argument. */
  function ReadIf(): ConditionArg {
    Closure(args => FirstHasIdOne(args) && Truthy(Extra(args)))
  }

  /** The update restriction of the extra-argument scenario: denied unless id 1 and a truthy extra argument. */
  function UpdateUnless(): ConditionArg {
    Closure(args => !FirstHasIdOne(args) || !Truthy(Extra(args)))
  }

  function ExtraScenario(): Manager {
    Add(Add(New(None), Privilege, "read", "stdClass", ReadIf()), Restriction, "update", "stdClass", UpdateUnless())
  }

  /** Each action of the extra-argument scenario has exactly its own rule. */
  lemma ExtraScenarioRelevance(action: string)
    requires action == "read" || action == "update"
    ensures GetRelevantRules(ExtraScenario(), One(action), Str("stdClass"))
         == [if action == "read" then NewRule(Privilege, "read", Str("stdClass"), ReadIf())
             else NewRule(Restriction, "update", Str("stdClass"), UpdateUnless())]
  {
    var m0 := New(None);
    var m1 := Add(m0, Privilege, "read", "stdClass", ReadIf());
    AddedRuleRelevance(m0, Privilege, "read", "stdClass", ReadIf(), One(action), Str("stdClass"));
    AddedRuleRelevance(m1, Restriction, "update", "stdClass", UpdateUnless(), One(action), Str("stdClass"));
  }

  /** Reading needs object id 1 and an extra argument loosely equal to true. */
  lemma ExtraArgumentReadDecisions()
    ensures Can(ExtraScenario(), One("read"), Object(1), [Bool(true)])
    ensures !Can(ExtraScenario(), One("read"), Object(1), [Bool(false)])
    ensures !Can(ExtraScenario(), One("read"), Object(2), [Str("undefined")])
  {
    ExtraScenarioRelevance("read");
  }

  /** Updating is denied when the id is not 1 or the extra argument is loosely equal to false (or missing). */
  lemma ExtraArgumentUpdateDecisions()
    ensures Can(ExtraScenario(), One("update"), Object(1), [Bool(true)])
    ensures !Can(ExtraScenario(), One("update"), Object(1), [Bool(false)])
    ensures !Can(ExtraScenario(), One("update"), Object(2), [])
    ensures !Cannot(ExtraScenario(), One("update"), Object(1), [Bool(true)])
    ensures Cannot(ExtraScenario(), One("update"), Object(1), [Bool(false)])
    ensures Cannot(ExtraScenario(), One("update"), Object(2), [])
  {
    ExtraScenarioRelevance("update");
  }

  /** `canAny` and `canAll` never consult the rules, so they disagree with `can`. */
  lemma CanAnyCanAllIgnoreRules()
    ensures
      var m := Add(New(None), Privilege, "read", "User", NoCondition);
      && Can(m, One("read"), Str("User"), [])
      && !CanAny(m, ["read"], Str("User"), [])
      && !Can(m, One("update"), Str("User"), [])
      && CanAll(m, ["update"], Str("User"), [])
  {
    var m0 := New(None);
    AddedRuleRelevance(m0, Privilege, "read", "User", NoCondition, One("read"), Str("User"));
    AddedRuleRelevance(m0, Privilege, "read", "User", NoCondition, One("update"), Str("User"));
  }
}

=== FILE: rule_collection.dfy ===
/**
 * The rule collection of the older namespace. It repeats the relevance
 * filter; here it is written as an explicit scan and shown to agree with
 * the collection's filter on every input.
 */
module RuleCollection {
  import opened Values
  import opened Rules
  import Collection

  /** Scans the rules front to back, keeping each relevant one. */
  method GetRelevantRules(rules: seq<Rule>, q: ActionQuery, resource: Value) returns (r: seq<Rule>)
    ensures r == Collection.Relevant(rules, q, resource)
    ensures |r| <= |rules|
    ensures forall k :: 0 <= k < |r| ==> IsRelevant(r[k], q, resource)
  {
    r := [];
    var i := 0;
    while i < |rules|
      invariant 0 <= i <= |rules|
      invariant r == Collection.Relevant(rules[..i], q, resource)
    {
      assert rules[..i + 1] == rules[..i] + [rules[i]];
      Collection.RelevantSnoc(rules[..i], rules[i], q, resource);
      if IsRelevant(rules[i], q, resource) {
        r := r + [rules[i]];
      }
      i := i + 1;
    }
    assert rules[..|rules|] == rules;
  }
}

=== FILE: rules.dfy ===
/**
 * A single authorization rule: a polarity (privilege or restriction), an
 * action, a resource and an optional condition, with the relevance test
 * (action membership, resource matching) and the rule's own check.
 */
module Rules {
  import opened Wrappers
  import opened Values

  /** A stored resource equal to this string matches every resource; action matching never consults it. */
  const Wildcard: string := "all"

  /** The concrete rule class: a `Privilege` grants when its condition holds, a `Restriction` denies. */
  datatype Polarity = Privilege | Restriction

  /** A condition closure, applied to the argument list of one check. */
  type Condition = seq<Value> -> bool

  /**
   * What a caller hands to the rule constructor in the condition position. An
   * `UnbindableClosure` is still a closure, but one that cannot be bound to an
   * object: a static closure, or one created from another class's method.
   */
  datatype ConditionArg = NoCondition | Closure(f: Condition) | UnbindableClosure(f: Condition) | NotClosure(v: Value)

  datatype Rule = Rule(polarity: Polarity, action: string, resource: Value, condition: Option<Condition>)

  /** The action side of a relevance query: a single action or an array of actions. */
  datatype ActionQuery = One(name: string) | Many(names: seq<string>)

  /** The rule constructor: the condition is kept only when it is a closure. */
  function NewRule(polarity: Polarity, action: string, resource: Value, condition: ConditionArg): (r: Rule)
    ensures r.polarity == polarity && r.action == action && r.resource == resource
    ensures r.condition.Some? <==> condition.Closure? || condition.UnbindableClosure?
    ensures condition.Closure? || condition.UnbindableClosure? ==> r.condition.value == condition.f
  {
    Rule(polarity, action, resource, if condition.Closure? || condition.UnbindableClosure? then Some(condition.f) else None)
  }

  /** The `(array)` cast of the queried action: a scalar becomes a one-element list. */
  function ActionList(q: ActionQuery): seq<string> {
    match q
    case One(a) => [a]
    case Many(actions) => actions
  }

  /** `in_array` with string comparison, as a front-to-back scan. */
  function InArray(needle: string, haystack: seq<string>): (r: bool)
    ensures r <==> needle in haystack
  {
    if |haystack| == 0 then false
    else haystack[0] == needle || InArray(needle, haystack[1..])
  }

  /**
   * `matchesAction`: the rule's action is one of the queried actions; a single
   * queried action matches only itself.
   */
  function MatchesAction(rule: Rule, q: ActionQuery): (r: bool)
    ensures r <==> rule.action in ActionList(q)
    ensures q.One? ==> (r <==> rule.action == q.name)
  {
    InArray(rule.action, ActionList(q))
  }

  /**
   * The wildcard first; then equality when both sides have the same PHP
   * type; then class-name equality between a name and an object, in either
   * direction; anything else does not match.
   */
  function MatchesResource(rule: Rule, resource: Value): (r: bool)
    ensures r <==>
      || rule.resource == Str(Wildcard)
      || rule.resource == resource
      || (rule.resource.Instance? && resource == Str(rule.resource.cls))
      || (resource.Instance? && rule.resource == Str(resource.cls))
  {
    var stored := rule.resource;
    if stored.Str? && stored.s == Wildcard then true
    else if KindOf(stored) == KindOf(resource) then stored == resource
    else if stored.Instance? && resource.Str? then stored.cls == resource.s
    else if stored.Str? && resource.Instance? then stored.s == resource.cls
    else false
  }

  function IsRelevant(rule: Rule, q: ActionQuery, resource: Value): (r: bool)
    ensures r <==> rule.action in ActionList(q) && MatchesResource(rule, resource)
  {
    MatchesAction(rule, q) && MatchesResource(rule, resource)
  }

  /** Invokes the condition on the arguments; a rule without a condition holds. */
  function CheckCondition(rule: Rule, args: seq<Value>): (r: bool)
    ensures rule.condition.None? ==> r
    ensures rule.condition.Some? ==> r == rule.condition.value(args)
  {
    match rule.condition
    case None => true
    case Some(f) => f(args)
  }

  /** A privilege reports its condition; a restriction reports the negation. */
  function Check(rule: Rule, args: seq<Value>): (r: bool)
    ensures rule.polarity == Privilege ==> r == CheckCondition(rule, args)
    ensures rule.polarity == Restriction ==> r == !CheckCondition(rule, args)
  {
    match rule.polarity
    case Privilege => CheckCondition(rule, args)
    case Restriction => !CheckCondition(rule, args)
  }

  /** The results of checking every rule, in order (a `map` over the collection). */
  function Checks(rules: seq<Rule>, args: seq<Value>): (r: seq<bool>)
    ensures |r| == |rules|
    ensures forall i :: 0 <= i < |rules| ==> r[i] == Check(rules[i], args)
  {
    seq(|rules|, i requires 0 <= i < |rules| => Check(rules[i], args))
  }

  /** Every rule's check holds. */
  ghost predicate AllAllow(rules: seq<Rule>, args: seq<Value>) {
    forall i :: 0 <= i < |rules| ==> Check(rules[i], args)
  }

  /** At least one rule's check holds. */
  ghost predicate SomeAllows(rules: seq<Rule>, args: seq<Value>) {
    exists i :: 0 <= i < |rules| && Check(rules[i], args)
  }

  /** A rule with no condition: a privilege always holds, a restriction never does. */
  lemma UnconditionalCheck(rule: Rule, args: seq<Value>)
    requires rule.condition.None?
    ensures Check(rule, args) <==> rule.polarity == Privilege
  {
  }

  /** A condition that is not a closure is dropped, so the rule is unconditional. */
  lemma NonClosureIsUnconditional(polarity: Polarity, action: string, resource: Value, v: Value, args: seq<Value>)
    ensures NewRule(polarity, action, resource, NotClosure(v)).condition.None?
    ensures Check(NewRule(polarity, action, resource, NotClosure(v)), args) <==> polarity == Privilege
  {
  }

  /** With the same condition and arguments, a restriction answers the opposite of a privilege. */
  lemma RestrictionNegatesPrivilege(action: string, resource: Value, condition: ConditionArg, args: seq<Value>)
    ensures Check(NewRule(Restriction, action, resource, condition), args)
        == !Check(NewRule(Privilege, action, resource, condition), args)
  {
  }

  /** The condition receives the argument list unchanged. */
  lemma ConditionSeesArguments(polarity: Polarity, action: string, resource: Value, f: Condition, args: seq<Value>)
    ensures Check(NewRule(polarity, action, resource, Closure(f)), args)
        == (if polarity == Privilege then f(args) else !f(args))
  {
  }

  /** A scalar action is a one-element list: membership is equality. */
  lemma SingleActionIsEquality(rule: Rule, action: string)
    ensures MatchesAction(rule, One(action)) <==> rule.action == action
  {
  }

  /** The wildcard is not consulted for actions: a rule for action "all" matches only "all". */
  lemma WildcardIsNotAnAction(rule: Rule, q: ActionQuery)
    requires rule.action == Wildcard
    ensures MatchesAction(rule, q) <==> Wildcard in ActionList(q)
  {
  }

  /** A rule stored on the wildcard resource matches every resource. */
  lemma WildcardMatchesEveryResource(rule: Rule, resource: Value)
    requires rule.resource == Str(Wildcard)
    ensures MatchesResource(rule, resource)
  {
  }

  /** A class name and an instance of that class match each other, whichever one the rule stores. */
  lemma ClassNameMatchesInstance(action: string, polarity: Polarity, cls: string, fields: map<string, Value>)
    ensures MatchesResource(Rule(polarity, action, Str(cls), None), Instance(cls, fields))
    ensures MatchesResource(Rule(polarity, action, Instance(cls, fields), None), Str(cls))
  {
  }

  /** Apart from the wildcard, values of different PHP types match only as a class name and an object. */
  lemma MismatchedKindsFailClosed(rule: Rule, resource: Value)
    requires rule.resource != Str(Wildcard)
    requires KindOf(rule.resource) != KindOf(resource)
    requires !rule.resource.Str? || !resource.Instance?
    requires !rule.resource.Instance? || !resource.Str?
    ensures !MatchesResource(rule, resource)
  {
  }

  /**
   * The rule tests: rules stored on a mock object, whose generated class
   * name differs from the plain name "Object".
   */
  lemma MockResourceMatching(mock: Value)
    requires mock.Instance? && mock.cls != "Object"
    ensures MatchesAction(NewRule(Privilege, "read", mock, NoCondition), One("read"))
    ensures !MatchesAction(NewRule(Restriction, "update", mock, NoCondition), Many(["read", "delete"]))
    ensures MatchesResource(NewRule(Privilege, "read", mock, NoCondition), mock)
    ensures MatchesResource(NewRule(Privilege, "read", mock, NoCondition), Str(mock.cls))
    ensures !MatchesResource(NewRule(Privilege, "read", mock, NoCondition), Str("Object"))
    ensures IsRelevant(NewRule(Privilege, "read", mock, NoCondition), Many(["read", "write"]), Str(mock.cls))
    ensures !IsRelevant(NewRule(Privilege, "read", mock, NoCondition), One("update"), Str(mock.cls))
  {
  }
}

=== FILE: sequential.dfy ===
/**
 * The sequential strategy: the conjunction of every rule's check, or'ed
 * with the last rule's check.
 */
module SequentialStrategy {
  import opened Values
  import opened Rules

  /** The collection's `reduce` with the callback `result && check`, folding from the front. */
  function Reduce(rules: seq<Rule>, args: seq<Value>, acc: bool): bool
    decreases |rules|
  {
    if |rules| == 0 then acc
    else Reduce(rules[1..], args, acc && Check(rules[0], args))
  }

  /** The fold is the conjunction of the seed with every rule's check. */
  lemma {:induction false} ReduceIsConjunction(rules: seq<Rule>, args: seq<Value>, acc: bool)
    ensures Reduce(rules, args, acc) <==> acc && AllAllow(rules, args)
    decreases |rules|
  {
    if |rules| > 0 {
      ReduceIsConjunction(rules[1..], args, acc && Check(rules[0], args));
      assert forall i :: 1 <= i < |rules| ==> rules[i] == rules[1..][i - 1];
    }
  }

  /**
   * Folds, then or's in the last rule's check. On an empty collection the
   * fold yields true and the `||` never reaches the (missing) last rule.
   */
  function Apply(rules: seq<Rule>, args: seq<Value>): (r: bool)
    ensures |rules| == 0 ==> r
    ensures |rules| > 0 ==> (r <==> AllAllow(rules, args) || Check(rules[|rules| - 1], args))
  {
    ReduceIsConjunction(rules, args, true);
    Reduce(rules, args, true) || (|rules| > 0 && Check(rules[|rules| - 1], args))
  }

  /** Since the conjunction includes the last rule, the last rule alone decides. */
  lemma LastRuleDecides(rules: seq<Rule>, args: seq<Value>)
    requires |rules| > 0
    ensures Apply(rules, args) == Check(rules[|rules| - 1], args)
  {
  }

  /** A single rule decides by its own check. */
  lemma SingleRule(rule: Rule, args: seq<Value>)
    ensures Apply([rule], args) == Check(rule, args)
  {
  }

  /** An unconditional privilege appended last grants; an unconditional restriction appended last denies. */
  lemma AppendedUnconditionalRuleWins(rules: seq<Rule>, polarity: Polarity, action: string, resource: Value, args: seq<Value>)
    ensures Apply(rules + [NewRule(polarity, action, resource, NoCondition)], args) <==> polarity == Privilege
  {
    var last := NewRule(polarity, action, resource, NoCondition);
    LastRuleDecides(rules + [last], args);
    assert (rules + [last])[|rules|] == last;
  }

  /** Order matters: restriction then privilege grants, privilege then restriction denies. */
  lemma OrderSensitive(action: string, resource: Value, args: seq<Value>)
    ensures Apply([NewRule(Restriction, action, resource, NoCondition), NewRule(Privilege, action, resource, NoCondition)], args)
    ensures !Apply([NewRule(Privilege, action, resource, NoCondition), NewRule(Restriction, action, resource, NoCondition)], args)
  {
    var privilege := NewRule(Privilege, action, resource, NoCondition);
    var restriction := NewRule(Restriction, action, resource, NoCondition);
    AppendedUnconditionalRuleWins([restriction], Privilege, action, resource, args);
    AppendedUnconditionalRuleWins([privilege], Restriction, action, resource, args);
    assert [restriction] + [privilege] == [restriction, privilege];
    assert [privilege] + [restriction] == [privilege, restriction];
  }
}

=== FILE: strategy.dfy ===
/**
 * The strategy base: an empty collection is always denied (fail closed);
 * otherwise the chosen strategy's `apply` decides.
 */
module Strategy {
  import opened Values
  import opened Rules
  import opened Collection
  import SequentialStrategy
  import SubtractiveStrategy
  import AdditiveStrategy

  datatype Strategy = Sequential | Subtractive | Additive

  /** The `apply` of each concrete strategy. */
  function Apply(s: Strategy, rules: seq<Rule>, args: seq<Value>): bool {
    match s
    case Sequential => SequentialStrategy.Apply(rules, args)
    case Subtractive => SubtractiveStrategy.Apply(rules, args)
    case Additive => AdditiveStrategy.Apply(rules, args)
  }

  /** The base `check`, for any `apply` whatsoever. */
  function CheckWith(apply: (seq<Rule>, seq<Value>) -> bool, rules: seq<Rule>, args: seq<Value>): (r: bool)
    ensures |rules| == 0 ==> !r
    ensures |rules| > 0 ==> r == apply(rules, args)
  {
    if |rules| == 0 then false else apply(rules, args)
  }

  /** The decision of strategy `s` over a collection of rules. */
  function Check(s: Strategy, rules: seq<Rule>, args: seq<Value>): (r: bool)
    ensures |rules| == 0 ==> !r
    ensures s == Sequential ==> (r <==> |rules| > 0 && Rules.Check(rules[|rules| - 1], args))
    ensures s == Subtractive ==> (r <==> |rules| > 0 && AllAllow(rules, args))
    ensures s == Additive ==> (r <==> SomeAllows(rules, args))
  {
    if |rules| == 0 then CheckWith((rs, xs) => Apply(s, rs, xs), rules, args)
    else
      SequentialStrategy.LastRuleDecides(rules, args);
      CheckWith((rs, xs) => Apply(s, rs, xs), rules, args)
  }

  /** Called without arguments, a check passes the conditions an empty argument list. */
  function CheckWithoutArgs(s: Strategy, rules: seq<Rule>): (r: bool)
    ensures |rules| == 0 ==> !r
    ensures |rules| > 0 ==> r == Apply(s, rules, [])
  {
    Check(s, rules, [])
  }

  /** Fail closed: no strategy grants on an empty collection. */
  lemma FailClosed(apply: (seq<Rule>, seq<Value>) -> bool, s: Strategy, args: seq<Value>)
    ensures !CheckWith(apply, [], args)
    ensures !Check(s, [], args)
  {
  }

  /**
   * Adding rules can only widen an additive grant; once the collection is
   * non-empty, adding rules can only narrow a subtractive grant (from an empty
   * collection, which is denied, adding a privilege grants).
   */
  lemma MonotoneUnderAppend(a: seq<Rule>, b: seq<Rule>, args: seq<Value>)
    ensures Check(Additive, a, args) ==> Check(Additive, a + b, args)
    ensures |a| > 0 && Check(Subtractive, a + b, args) ==> Check(Subtractive, a, args)
  {
    AdditiveStrategy.AppendIsDisjunction(a, b, args);
    SubtractiveStrategy.AppendIsConjunction(a, b, args);
  }
}

=== FILE: strategy_scenarios.dfy ===
/**
 * The strategy tests' scenario: six unconditional rules on "User", and the
 * verdict each strategy reaches for each action.
 */
module StrategyScenarios {
  import opened Values
  import opened Rules
  import opened Collection
  import opened Strategy

  /** An unconditional rule on "User", as the strategy tests build them. */
  function UserRule(polarity: Polarity, action: string): Rule {
    NewRule(polarity, action, Str("User"), NoCondition)
  }

  /** The rules of the strategy tests, all on the resource "User". */
  function TestRules(): seq<Rule> {
    [ UserRule(Restriction, "create"),
      UserRule(Privilege, "create"),
      UserRule(Privilege, "read"),
      UserRule(Privilege, "update"),
      UserRule(Restriction, "update"),
      UserRule(Restriction, "delete") ]
  }

  /** A test rule is relevant exactly to its own action on "User". */
  lemma UserRuleRelevance(polarity: Polarity, ruleAction: string, action: string)
    ensures IsRelevant(UserRule(polarity, ruleAction), One(action), Str("User")) <==> ruleAction == action
  {
  }

  /**
   * The relevance filter over the test rules, one rule at a time: the
   * result keeps, in order, the test rules whose action is `action`.
   */
  lemma TestRulesRelevance(action: string)
    ensures Relevant(TestRules(), One(action), Str("User"))
         == Filter(TestRules(), (rule: Rule) => rule.action == action)
  {
    var rules := TestRules();
    var q := One(action);
    var user := Str("User");
    var byAction := (rule: Rule) => rule.action == action;
    forall k | 0 <= k < |rules|
      ensures RelevantTo(q, user)(rules[k]) == byAction(rules[k])
    {
      UserRuleRelevance(rules[k].polarity, rules[k].action, action);
    }
    FilterSameTest(rules, RelevantTo(q, user), byAction);
  }

  /** A test rule as the filter by `action` sees it: kept alone, or dropped. */
  function Keep(rule: Rule, action: string): (r: seq<Rule>)
    ensures r == [rule] <==> rule.action == action
    ensures r == [] <==> rule.action != action
  {
    if rule.action == action then [rule] else []
  }

  /** The filter by action over the test rules, unfolded rule by rule. */
  lemma TestRulesUnfolded(action: string)
    ensures var rules := TestRules();
      Relevant(rules, One(action), Str("User"))
        == Keep(rules[0], action) + (Keep(rules[1], action) + (Keep(rules[2], action)
         + (Keep(rules[3], action) + (Keep(rules[4], action) + Keep(rules[5], action)))))
  {
    TestRulesRelevance(action);
    FilterSix(TestRules(), (rule: Rule) => rule.action == action);
  }

  /** The strategy tests on create: the privilege comes last, so sequential and additive grant; the restriction vetoes a subtractive grant. */
  lemma CreateVerdicts()
    ensures CheckWithoutArgs(Sequential, Relevant(TestRules(), One("create"), Str("User")))
    ensures CheckWithoutArgs(Additive, Relevant(TestRules(), One("create"), Str("User")))
    ensures !CheckWithoutArgs(Subtractive, Relevant(TestRules(), One("create"), Str("User")))
  {
    TestRulesUnfolded("create");
    assert Relevant(TestRules(), One("create"), Str("User")) == [UserRule(Restriction, "create"), UserRule(Privilege, "create")];
  }

  /** The strategy tests on read: a lone privilege grants additively and subtractively. */
  lemma ReadVerdicts()
    ensures CheckWithoutArgs(Additive, Relevant(TestRules(), One("read"), Str("User")))
    ensures CheckWithoutArgs(Subtractive, Relevant(TestRules(), One("read"), Str("User")))
  {
    TestRulesUnfolded("read");
    assert Relevant(TestRules(), One("read"), Str("User")) == [UserRule(Privilege, "read")];
  }

  /** The strategy tests on update: the restriction comes last, so sequential denies; additive grants; subtractive denies. */
  lemma UpdateVerdicts()
    ensures !CheckWithoutArgs(Sequential, Relevant(TestRules(), One("update"), Str("User")))
    ensures CheckWithoutArgs(Additive, Relevant(TestRules(), One("update"), Str("User")))
    ensures !CheckWithoutArgs(Subtractive, Relevant(TestRules(), One("update"), Str("User")))
  {
    TestRulesUnfolded("update");
    assert Relevant(TestRules(), One("update"), Str("User")) == [UserRule(Privilege, "update"), UserRule(Restriction, "update")];
  }

  /** The strategy tests on delete: a lone restriction denies additively and subtractively. */
  lemma DeleteVerdicts()
    ensures !CheckWithoutArgs(Additive, Relevant(TestRules(), One("delete"), Str("User")))
    ensures !CheckWithoutArgs(Subtractive, Relevant(TestRules(), One("delete"), Str("User")))
  {
    TestRulesUnfolded("delete");
    assert Relevant(TestRules(), One("delete"), Str("User")) == [UserRule(Restriction, "delete")];
  }
}

=== FILE: subtractive.dfy ===
/**
 * The subtractive strategy: any check that comes back false vetoes, so
 * access is granted only when no rule objects.
 */
module SubtractiveStrategy {
  import opened Values
  import opened Rules
  import opened Collection

  /** The filter callback keeping results identical to false. */
  const IsVeto: bool -> bool := b => b == false

  /** Maps every rule to its check, keeps the false results, and grants when none are left. */
  function Apply(rules: seq<Rule>, args: seq<Value>): (r: bool)
    ensures r <==> AllAllow(rules, args)
  {
    var results := Checks(rules, args);
    FilterEmpty(results, IsVeto);
    |Filter(results, IsVeto)| == 0
  }

  /** An unconditional restriction anywhere in the collection vetoes. */
  lemma UnconditionalRestrictionVetoes(rules: seq<Rule>, args: seq<Value>, j: int)
    requires 0 <= j < |rules|
    requires rules[j].polarity == Restriction && rules[j].condition.None?
    ensures !Apply(rules, args)
  {
  }

  /** A collection of unconditional privileges only grants. */
  lemma UnconditionalPrivilegesGrant(rules: seq<Rule>, args: seq<Value>)
    requires forall j :: 0 <= j < |rules| ==> rules[j].polarity == Privilege && rules[j].condition.None?
    ensures Apply(rules, args)
  {
  }

  /** The order of the rules does not matter. */
  lemma PermutationInvariant(rules: seq<Rule>, p: seq<int>, args: seq<Value>)
    requires IsPermutation(p, |rules|)
    ensures Apply(Reorder(rules, p), args) == Apply(rules, args)
  {
    var moved := Reorder(rules, p);
    if AllAllow(moved, args) {
      forall j | 0 <= j < |rules|
        ensures Check(rules[j], args)
      {
        assert j in p;
        var i :| 0 <= i < |p| && p[i] == j;
        assert moved[i] == rules[j];
      }
    }
  }

  /** Joining two collections grants only when both grant; adding rules never turns a denial into a grant. */
  lemma AppendIsConjunction(a: seq<Rule>, b: seq<Rule>, args: seq<Value>)
    ensures Apply(a + b, args) == (Apply(a, args) && Apply(b, args))
  {
    if AllAllow(a, args) && AllAllow(b, args) {
      forall i | 0 <= i < |a + b|
        ensures Check((a + b)[i], args)
      {
        if i >= |a| {
          assert (a + b)[i] == b[i - |a|];
        }
      }
    }
    if AllAllow(a + b, args) {
      assert forall i :: 0 <= i < |a| ==> (a + b)[i] == a[i];
      assert forall i :: 0 <= i < |b| ==> (a + b)[|a| + i] == b[i];
    }
  }
}

=== FILE: values.dfy ===
/**
 * The PHP values the rule engine handles: resources stored in rules,
 * resources passed to `can`, and the arguments handed to conditions.
 */
module Values {

  /** A PHP value. An `Instance` is an object: its class name and its properties. */
  datatype Value =
    | Null
    | Bool(b: bool)
    | Int(n: int)
    | Str(s: string)
    | Instance(cls: string, fields: map<string, Value>)

  /** The result of PHP's `gettype()`, one constructor per type name. */
  datatype Kind = NullKind | BoolKind | IntKind | StringKind | ObjectKind

  function KindOf(v: Value): (k: Kind)
    ensures k == StringKind <==> v.Str?
    ensures k == ObjectKind <==> v.Instance?
  {
    match v
    case Null => NullKind
    case Bool(_) => BoolKind
    case Int(_) => IntKind
    case Str(_) => StringKind
    case Instance(_, _) => ObjectKind
  }

  /** PHP's conversion to boolean, used when a value is compared with `== true`. */
  predicate Truthy(v: Value) {
    match v
    case Null => false
    case Bool(b) => b
    case Int(n) => n != 0
    case Str(s) => s != "" && s != "0"
    case Instance(_, _) => true
  }
}

=== FILE: wrappers.dfy ===
/** The Option and Result datatypes used across the model. */
module Wrappers {

  /** A value that may be absent (PHP `null`). */
  datatype Option<+T> = None | Some(value: T)

  /** Either a computed value or the exception the PHP code would throw. */
  datatype Result<+T, +E> = Ok(value: T) | Err(error: E)
}
